=== FILE: README.md ===
# bowman_certification in Dafny

A model of the decision core of the Odoo add-on `bowman_certification`. The add-on certifies serviced lots: it measures the elements a manufacturer declares on a lot's label and compares them with the label.

The model covers:

- **Result computation** (`action_compute_result`). The readings of a certification service are grouped per element, keeping a sum and a count. Each element needs at least five readings. Each element's average is compared with the first labeled value for that element, converted to the company's reading unit. An element passes when it deviates from the label by less than 10 %. The service's `is_pass` flag is set when every result passes.
- **The service lifecycle**: `action_start`, `action_finish`, `generate_readings`, `_compute_element_ids`, and the in-house-standard check that `write` performs.
- **The stock workflow**:
  - the values of a new service, including its name;
  - generation of at most one service per eligible move line;
  - the "certification services done" test;
  - the gate that `button_validate` puts in front of a transfer.

Records are immutable datatypes (`records.dfy`). All certification services together form a `Db`, a sequence in which a service's id is its index. A recordset of services is a set of such ids. A many2one field that may be empty is an `Option`. Floats are `real`.

An action that raises an exception returns `Failure(error)` and no state, because Odoo rolls the transaction back. Unit conversion (`_compute_quantity`) and Python's `str(float)` are not modelled: they are function parameters (`Converter`, `RealToString`). Two Odoo orderings matter here: `_order = 'sequence,id'` on labeled values and `'sequence'` on results. Both are a stable insertion sort on a lexicographic key (`Recordsets.SortBy`). `mapped`, and the key order of a Python dict, keep first occurrences (`Recordsets.Dedup`).

Three behaviours of the code differ from what their names or comments suggest; the model follows the code:

- `check_certification_services_done` passes when **any** service of the lines is done, not when all of them are. `Examples.OneDoneServiceIsEnough` shows two services on one line, one done and one draft, for which the check passes.
- `action_start` writes `working_on` to every selected service, so it also reopens done services.
- `self.is_pass = True` goes through `write`. So computing an all-pass result on a service without in-house standards fails with the standards error, and nothing is stored.

## Model

| member | source | states |
|---|---|---|
| Recordsets.SortBy | bowman_certification/models/certification.py:204-207 | the `_order` of labeled values: the output is sorted by (sequence, id) and is a permutation of the input |
| Recordsets.Filter | bowman_certification/models/certification.py:122 | `filtered` keeps exactly the elements that satisfy the predicate, and only those |
| Recordsets.FilterKeepsSorted | bowman_certification/models/certification.py:122-124 | filtering an ordered recordset keeps it ordered, so `[0]` of the filtered labels is the least one |
| Recordsets.FilterAppend | bowman_certification/models/certification.py:122-124 | filtering a concatenation is the concatenation of the filtered parts, so `filtered` keeps the input order and each kept record exactly as often as it occurs |
| Recordsets.Dedup | bowman_certification/models/certification.py:105-108 | dict keys and `mapped`: no duplicates, exactly the values that occur in the input, and in order of their first occurrence |
| ReadingGroups.IndexOf | bowman_certification/models/certification.py:107 | the dict lookup: the position of the key, or the length exactly when the key is absent |
| ReadingGroups.Accumulate | bowman_certification/models/certification.py:106-110 | one loop step: a known element gets the reading added to its sum and one added to its count; a new element opens a tally `[value, 1]` at the end |
| ReadingGroups.GroupReadings | bowman_certification/models/certification.py:105-110 | the tallies' keys are the distinct elements in order of first reading; each tally's sum and count equal the sum and number of that element's readings |
| ReadingGroups.CountPositiveIffPresent | bowman_certification/models/certification.py:105-110 | an element has a non-zero count exactly when some reading names it |
| ReadingGroups.CountOfAppend | bowman_certification/models/certification.py:106-110 | counts and sums over two batches of readings add up |
| ServiceLifecycle.WriteOne | bowman_certification/models/certification.py:70-76 | a write succeeds exactly when the service ends up with at least one in-house standard; it sets the written fields and changes nothing else |
| ServiceLifecycle.Write | bowman_certification/models/certification.py:70-76 | a write on several services fails if any of them would lack standards; otherwise each selected service is written and the others are unchanged |
| ServiceLifecycle.WriteKeepsStandards | bowman_certification/models/certification.py:70-76 | after a successful write every service still has a standard |
| ServiceLifecycle.WriteWithoutStandardsSucceeds | bowman_certification/models/certification.py:70-76 | a write that does not touch the standards cannot fail on services that all have some |
| ServiceLifecycle.ElementIds | bowman_certification/models/certification.py:79-82 | the selectable elements are exactly the elements of the lot's labeled values, without duplicates |
| ServiceLifecycle.GenerateReadings | bowman_certification/models/certification.py:52-67 | exactly n times the number of elements readings; each is linked to the service, has value 0.0 and an element from the list; each element gets n readings per occurrence in the list |
| ServiceLifecycle.StoredElementIds | bowman_certification/models/certification.py:39-40 | the stored many2many read back holds the same elements, without duplicates, ordered by element id |
| ServiceLifecycle.SeedCountsPerElement | bowman_certification/models/certification.py:86-89 | seeding gives each labeled element exactly five readings and other elements none, in creation order and in stored order alike |
| Records.RequiredReadingCount | bowman_certification/models/certification.py:60-61 | the required number of readings per element is five |
| ResultComputation.SeededServiceHasEnoughReadings | bowman_certification/models/certification.py:60-66 | the readings generated for a service, in creation order or in stored order, never trip the count check, because each element gets exactly the required count |
| ServiceLifecycle.ActionStart | bowman_certification/models/certification.py:84-89 | every selected service becomes working_on, done ones included; readings are generated only for services with none, element by element in stored (id) order; fails exactly when a selected service lacks standards |
| ServiceLifecycle.ActionFinish | bowman_certification/models/certification.py:91-92 | only selected services in working_on become done; every other service is unchanged |
| ServiceLifecycle.ActionStartIdempotent | bowman_certification/models/certification.py:84-89 | starting twice is the same as starting once, since readings exist after the first start |
| ServiceLifecycle.ActionFinishIdempotent | bowman_certification/models/certification.py:91-92 | finishing twice is the same as finishing once |
| ServiceLifecycle.StartThenFinishIsDone | bowman_certification/models/certification.py:84-92 | after a successful start, finish succeeds and leaves every selected service done |
| ResultComputation.FirstLabel | bowman_certification/models/certification.py:122-124 | the label found for an element exists exactly when the lot has a label for it, and it is the least such label in (sequence, id) order |
| ResultComputation.FirstLabelIsHeadOfOrderedFilter | bowman_certification/models/certification.py:122-124 | with distinct record ids, that label is exactly `[0]` of the labels read in 'sequence,id' order and filtered on the element |
| ResultComputation.FirstShortIndex | bowman_certification/models/certification.py:112-116 | the first tally below the required count, with every earlier one at or above it |
| ResultComputation.ShortElementIffShortTally | bowman_certification/models/certification.py:111-116 | the count check rejects exactly when some element of the readings has fewer than five readings, and it names such an element |
| ResultComputation.ComputeResult | bowman_certification/models/certification.py:94-142 | fails exactly when the reading unit is missing; otherwise fails, naming the element and the count 5, exactly when an element has fewer than five readings; on success replaces the results with one result per distinct element; each result is average = sum/count, compared with the first label; is_pass becomes old is_pass or all results passing; fails on the standards check exactly when it would set is_pass on a service without standards |
| ResultComputation.TooFewNamesFirstShort | bowman_certification/models/certification.py:111-116 | the count error names the first short element in reading order: every element whose first reading comes earlier has at least five readings |
| ResultComputation.EvaluateMeetsResultFor | bowman_certification/models/certification.py:118-139 | each created result carries the element's average, the first label's sequence, the absolute and percentage deviation from the converted label (zero without a label), and pass exactly when the percentage is below 10 |
| ResultComputation.PassIffWithinTenthOfLabel | bowman_certification/models/certification.py:127-138 | for a positive converted label, an element passes exactly when its deviation is under a tenth of the label |
| ResultComputation.NonPositiveLabelPasses | bowman_certification/models/certification.py:121-138 | an element with no label, or a converted label of zero or below, always passes |
| ResultComputation.AverageOfEqualReadings | bowman_certification/models/certification.py:118-120 | when all readings of an element have one value, its average is that value |
| ResultComputation.ComputeResultIdempotent | bowman_certification/models/certification.py:102-142 | recomputing results gives the same service, because old results are unlinked first |
| ResultComputation.DisplayedResults | bowman_certification/models/certification.py:168-171 | results are listed by sequence and are a permutation of the stored ones |
| ReadingGroups.ReadingName | bowman_certification/models/certification.py:159-165 | a reading's name is "[element] value", and empty exactly when the reading has no element |
| ReadingGroups.ReadingNameDeterminesParts | bowman_certification/models/certification.py:162-163 | when element names contain no ']', equal reading names mean equal element names and equal formatted values |
| StockMove.JoinContainsParts | bowman_certification/models/stock_move.py:17 | every part appears in the joined string |
| StockMove.ServiceName | bowman_certification/models/stock_move.py:15-19 | the name starts with the serial number and a space and ends with " / " and the manufacturer, which is empty when absent |
| StockMove.ServiceNameListsEveryLabel | bowman_certification/models/stock_move.py:17-19 | every labeled value of the lot appears in the name as "element value uom" |
| StockMove.PrepareServiceValues | bowman_certification/models/stock_move.py:12-29 | with a serviced lot the name is built from it and written to the lot's ref; otherwise the line name, or the move name when that is empty; the values link the line, the picking's company, the product and the group; the calibration date is the sale order's exactly when the group and the order exist, and empty otherwise |
| StockMove.GenerateServices | bowman_certification/models/stock_move.py:31-36 | keeps existing services; creates only services for eligible lines that had none; afterwards every eligible line has a service; keeps at most one service per line |
| StockMove.GenerateWhenAllServiced | bowman_certification/models/stock_move.py:33-34 | when every eligible line already has a service, generation changes nothing |
| StockMove.GenerateIdempotent | bowman_certification/models/stock_move.py:31-34 | generating twice is the same as generating once |
| StockMove.GenerateServicesAsWritten | bowman_certification/models/stock_move.py:31-36 | the code as written fails with a missing `reading_count` argument exactly when some eligible line lacks a service |
| StockMove.AsWrittenFailsWhereServicesAreDue | bowman_certification/models/stock_move.py:36 | the code as written fails exactly when the intended generation would create a service |
| StockMove.CheckServicesDone | bowman_certification/models/stock_move.py:38-42 | true exactly when the lines have no service or at least one of their services is done |
| StockMove.AllDoneImpliesCheckPasses | bowman_certification/models/stock_move.py:38-42 | when every service of the lines is done, the check passes |
| StockMove.CheckMatchesAllDoneForOneService | bowman_certification/models/stock_move.py:38-42 | with at most one service for the lines, "any done" and "all done" agree |
| StockPicking.OriginLineIds | bowman_certification/models/stock_picking.py:25-27 | the origin lines are exactly the lines of the moves preceding the line's move |
| StockPicking.Release | bowman_certification/models/stock_picking.py:29-32 | only the done quantity may change, and only for a gated line with a non-zero quantity whose origin is done; such a line gets its full quantity as done |
| StockPicking.EmptyOriginNeverReleases | bowman_certification/models/stock_picking.py:29 | a line whose origin moves have no move lines (or which has no origin moves) never counts as done and keeps its quantity |
| StockPicking.GatedWithoutOriginsBlocks | bowman_certification/models/stock_picking.py:21-35 | if every gated line has an empty set of origin move lines, a non-empty transfer is blocked |
| StockPicking.ValidateGate | bowman_certification/models/stock_picking.py:15-42 | the transfer gets through exactly when it is non-empty, some gated line is released if any line is gated, and no flagged line lacks a serial when the picking creates services; an empty transfer, and only that, is refused as such; the certification error is raised exactly when some line is gated and no gated line's origin is done; the serial error is raised exactly when, past that, a flagged line lacks a serviced serial, and it lists those lines' products; on success only the lines' done quantities change, as `Release` says |
| StockPicking.GenerateForLines | bowman_certification/models/stock_picking.py:50 | generating for the flagged lines keeps every existing service and keeps at most one service per line |
| StockPicking.EligibleLineServiced | bowman_certification/models/stock_picking.py:50 | every eligible line of the transfer has a service after generation |
| StockPicking.NewServicesBelongToLines | bowman_certification/models/stock_picking.py:50 | every new service belongs to an eligible line of the transfer |
| StockPicking.ButtonValidate | bowman_certification/models/stock_picking.py:15-51 | fails exactly as the gate does; services are generated from the released lines only when the parent returns nothing and the transfer creates services; otherwise the services are unchanged |
| StockPicking.ValidationServicesEveryEligibleLine | bowman_certification/models/stock_picking.py:29-51 | after a validation that generates services, existing services are kept, every eligible line of the transfer has exactly one service, and every new service belongs to one of those lines |
| StockPicking.ValidateGateAsWritten | bowman_certification/models/stock_picking.py:17-18 | as written, an empty transfer raises a NameError on `UserError`; otherwise the gate behaves as intended |
| StockPicking.ButtonValidateAsWritten | bowman_certification/models/stock_picking.py:15-51 | as written, `button_validate` raises the NameError exactly on an empty transfer; its other failures are the gate's errors or the missing reading count; when it succeeds the gate passed and no service was created |
| StockPicking.EmptyTransferRaisesNameError | bowman_certification/models/stock_picking.py:17-18 | on an empty transfer the code as written raises the NameError where the intended message is "no lines to move" |
| StockPicking.AsWrittenAbortsWhenServiceIsDue | bowman_certification/models/stock_picking.py:44-50 | on a non-empty transfer, the code as written matches the intended validation except that it aborts whenever a service is due |
| Examples.PassingExample | bowman_certification/models/certification.py:118-142 | readings 95, 98, 97, 96, 99 against a label of 100 give average 97, deviation 3 and 3 %, and the service passes |
| Examples.FailingExample | bowman_certification/models/certification.py:118-142 | readings 80, 82, 81, 79, 78 against a label of 100 give average 80 and 20 %, and the service does not pass |
| Examples.TooFewExample | bowman_certification/models/certification.py:111-116 | four readings of an element are refused, naming the element and the count 5 |
| Examples.MissingUnitExample | bowman_certification/models/certification.py:96-98 | a company without a reading unit stops the computation |
| Examples.UniformReadings | bowman_certification/models/certification.py:105-110 | readings that all name one element form a single group holding all of them |
| Examples.SumOfReadings | bowman_certification/models/certification.py:107-109 | for readings built from any list of values, the per-element sum the loop accumulates is the total of the values |
| Examples.OneDoneServiceIsEnough | bowman_certification/models/stock_move.py:40-42 | one done service and one draft service on a line pass the check, though not all of them are done |

## Left out

- The wizards. The backorder wizard (`wizard/stock_backorder_confirmation.py`) marks its pickings done with `action_done`. It then generates services for the lines whose destination creates services, and only after that cancels backorders and posts messages. The immediate-transfer wizard (`wizard/stock_immediate_transfer.py`) runs the parent `process`, then generates services only for pickings whose state is done. The service generation they call is modelled (`StockMove.GenerateServices`); the picking processing around it is not.
- Files that only declare fields (`res_company.py`, `res_config_settings.py`, `stock_location.py`, `stock_production.py`, `sale_order.py`, `__manifest__.py`). Their fields appear in the datatypes.
- ORM plumbing: `search`, `create`, `unlink`, `sudo`, related and stored fields, readonly states, and persistence. Actions return new values instead of writing records. Rollback is a `Failure` that carries no state.
- The parent `button_validate`. Whether it returns an action is the parameter `parentReturnsAction`. Its own checks and stock moves are not modelled.
- `_compute_quantity`: it is a parameter `convert(value, fromUom, toUom)`. Rounding and `digits` precision are not modelled, and floats are exact `real`s.
- `str(float)`: it is a parameter, in both the reading name and the service name.
- ServiceLifecycle.StoredElementIds: `action_start` is taken to run in a later request than the service's creation, so `element_ids` comes back from the database in element-id order. If it ran in the same transaction, Odoo's cache would still hold the computed label order (`ElementIds`). The number of readings per element is the same either way (`SeedCountsPerElement`).
- ResultComputation.DisplayedResults: orders results by sequence only. The tie order among equal sequences follows Odoo's fallback on `id`, and the model states only that the displayed list is a permutation of the stored one.
- Records.LabelKey: a labeled value's `sequence` has no default, so it may be unset. The model takes an unset sequence as 0 and orders it by that value. Odoo turns `_order = 'sequence,id'` into a database ORDER BY, and PostgreSQL sorts NULLs after every set value. So for a lot that mixes unset and set sequences, `FirstLabel`, the label order in `ServiceName` and `ElementIds` can differ from the source. This depends on the database, not on the add-on's own code.
- The translated text of the exceptions: an error is a constructor of `Records.Error`, carrying the data the message shows.

## Findings

| source | as written | input that shows it | evidently intended | confidence | as-written member | corrected member |
|---|---|---|---|---|---|---|
| bowman_certification/models/stock_move.py:36 | `service.generate_readings(service.element_ids)` omits the required `reading_count` argument (certification.py:63) and raises a TypeError | a transfer that creates services, with one line that has a product, a serviced serial and a procurement group but no service yet | generate `required_reading_count()` readings per element, as `action_start` does | high; not executed | StockMove.GenerateServicesAsWritten | StockMove.GenerateServices |
| bowman_certification/models/stock_picking.py:18 | raises `UserError`, which the file never imports, so the user gets a NameError | a transfer with no moves and no move lines | refuse with the "Please add some lines to move" error | high; not executed | StockPicking.ValidateGateAsWritten | StockPicking.ValidateGate |

=== FILE: examples.dfy ===
/**
 * Worked scenarios of result computation, with a unit conversion that
 * leaves values unchanged (label and readings in the same unit).
 */
module Examples {
  import opened Wrappers
  import opened Recordsets
  import opened Records
  import opened ReadingGroups
  import opened ResultComputation
  import opened StockMove

  function SameUnit(): Converter {
    (v: real, from: Uom, to: Uom) => v
  }

  function Kg(): Uom { Uom(1, "kg") }

  function Nitrogen(): Element { Element(1, "Nitrogen", "N", "n/a") }

  function NitrogenLabel(): LabeledValue {
    LabeledValue(1, 10, Nitrogen(), 100.0, Kg(), 0.0, None)
  }

  function Readings(service: nat, values: seq<real>): (rs: seq<Reading>)
    ensures |rs| == |values|
    ensures forall i :: 0 <= i < |rs| ==> rs[i] == Reading(service, Some(Nitrogen()), values[i])
  {
    seq(|values|, i requires 0 <= i < |values| => Reading(service, Some(Nitrogen()), values[i]))
  }

  /** A service in progress whose lot declares 100 kg of nitrogen. */
  function ServiceWith(values: seq<real>, company: Option<Company>): Service {
    Service(
      7, "LOT-1 N: 100.0 / ACME", company, Some(Product(3, "Fertilizer")),
      Some(Lot(5, "LOT-1", "R-1", [NitrogenLabel()], Some("ACME"))),
      11, Some(2), WorkingOn, Readings(7, values), [], false, None, {1})
  }

  function Acme(): Option<Company> { Some(Company(1, Some(Kg()))) }

  /** Five nitrogen readings on a lot with one nitrogen label give one result, for nitrogen. */
  lemma ScenarioComputes(values: seq<real>)
    requires |values| == 5
    ensures var s := ServiceWith(values, Acme());
            var r := ComputeResult(s, SameUnit());
            && r.Success?
            && |r.value.results| == 1
            && r.value.results[0].element == Some(Nitrogen())
            && ResultFor(r.value.results[0], s, Kg(), SameUnit())
            && (r.value.isPass <==> r.value.results[0].state == Pass)
  {
    var s := ServiceWith(values, Acme());
    var e := Some(Nitrogen());
    UniformReadings(s.readings, e);
    assert ReadingUomOf(s) == Some(Kg());
    assert !HasShortElement(s) by {
      forall i | 0 <= i < |s.readings|
        ensures CountOf(s.readings, s.readings[i].element) >= RequiredReadingCount()
      {
        assert s.readings[i].element == e;
      }
    }
    assert s.standards != {};
    var r := ComputeResult(s, SameUnit());
    assert r.Success?;
    assert ResultElements(r.value.results) == [e];
    assert |r.value.results| == 1 && r.value.results[0].element == e;
  }

  /** The only label of the scenario lot is the nitrogen one. */
  lemma ScenarioLabel(values: seq<real>)
    ensures FirstLabel(LotLabels(ServiceWith(values, Acme())), Some(Nitrogen())) == Some(NitrogenLabel())
  {
  }

  /** The result of a five-reading scenario, in terms of the readings' total. */
  lemma ScenarioNumbers(values: seq<real>, total: real)
    requires |values| == 5
    requires values[0] + values[1] + values[2] + values[3] + values[4] == total
    ensures var r := ComputeResult(ServiceWith(values, Acme()), SameUnit());
            && r.Success?
            && |r.value.results| == 1
            && r.value.results[0].average == total / 5.0
            && r.value.results[0].diff == Abs(total / 5.0 - 100.0)
            && r.value.results[0].percent == Abs(total / 5.0 - 100.0) / 100.0 * 100.0
            && (r.value.isPass <==> r.value.results[0].percent < 10.0)
  {
    var s := ServiceWith(values, Acme());
    ScenarioComputes(values);
    ScenarioLabel(values);
    UniformReadings(s.readings, Some(Nitrogen()));
    TotalOfFive(values);
    SumOfReadings(7, values);
    var r := ComputeResult(s, SameUnit());
    ScenarioArithmetic(r.value.results[0], s, total);
  }

  /** A nitrogen result of the scenario lot, from five readings totalling `total`. */
  lemma ScenarioArithmetic(res: CertResult, s: Service, total: real)
    requires ResultFor(res, s, Kg(), SameUnit())
    requires FirstLabel(LotLabels(s), res.element) == Some(NitrogenLabel())
    requires SumOf(s.readings, res.element) == total && CountOf(s.readings, res.element) == 5
    ensures res.average == total / 5.0
    ensures res.diff == Abs(total / 5.0 - 100.0)
    ensures res.percent == Abs(total / 5.0 - 100.0) / 100.0 * 100.0
    ensures res.state == Pass <==> res.percent < 10.0
  {
    assert Mean(total, 5) == total / 5.0;
    assert SameUnit()(100.0, Kg(), Kg()) == 100.0;
  }

  /** Readings 95, 98, 97, 96, 99 against a label of 100: average 97, 3 % off, pass. */
  lemma PassingExample()
    ensures var r := ComputeResult(ServiceWith([95.0, 98.0, 97.0, 96.0, 99.0], Acme()), SameUnit());
            && r.Success?
            && |r.value.results| == 1
            && r.value.results[0].average == 97.0
            && r.value.results[0].diff == 3.0
            && r.value.results[0].percent == 3.0
            && r.value.isPass
  {
    ScenarioNumbers([95.0, 98.0, 97.0, 96.0, 99.0], 485.0);
  }

  /** Readings 80, 82, 81, 79, 78 against a label of 100: average 80, 20 % off, fail. */
  lemma FailingExample()
    ensures var r := ComputeResult(ServiceWith([80.0, 82.0, 81.0, 79.0, 78.0], Acme()), SameUnit());
            && r.Success?
            && |r.value.results| == 1
            && r.value.results[0].average == 80.0
            && r.value.results[0].percent == 20.0
            && !r.value.isPass
  {
    ScenarioNumbers([80.0, 82.0, 81.0, 79.0, 78.0], 400.0);
  }

  /** Only four readings of nitrogen: the computation refuses to evaluate. */
  lemma TooFewExample()
    ensures ComputeResult(ServiceWith([95.0, 98.0, 97.0, 96.0], Acme()), SameUnit())
            == Failure(TooFewReadings(Some(Nitrogen()), 5))
  {
    var s := ServiceWith([95.0, 98.0, 97.0, 96.0], Acme());
    UniformReadings(s.readings, Some(Nitrogen()));
    assert s.readings[0].element == Some(Nitrogen());
    assert HasShortElement(s);
    var r := ComputeResult(s, SameUnit());
    assert r.error.element in ElementsOf(s.readings);
  }

  /** A company without a reading unit stops the computation before anything else. */
  lemma MissingUnitExample()
    ensures ComputeResult(ServiceWith([95.0, 98.0, 97.0, 96.0, 99.0], Some(Company(1, None))), SameUnit())
            == Failure(MissingReadingUom)
  {
  }

  /** Readings that all name one element form a single group holding all of them. */
  lemma {:induction false} UniformReadings(rs: seq<Reading>, e: Option<Element>)
    requires |rs| > 0
    requires forall i :: 0 <= i < |rs| ==> rs[i].element == e
    ensures CountOf(rs, e) == |rs|
    ensures Dedup(ElementsOf(rs)) == [e]
  {
    var d := Dedup(ElementsOf(rs));
    assert ElementsOf(rs)[0] == e;
    assert e in d;
    if |d| > 1 {
      forall k | 0 <= k < |d| ensures d[k] == e {
        assert d[k] in ElementsOf(rs);
        var i :| 0 <= i < |rs| && ElementsOf(rs)[i] == d[k];
      }
    }
    if |rs| > 1 {
      assert ElementsOf(rs)[..|rs| - 1] == ElementsOf(rs[..|rs| - 1]);
      UniformReadings(rs[..|rs| - 1], e);
    }
  }

  /** The sum of a sequence of values, added from the first to the last. */
  function Total(values: seq<real>): real {
    if |values| == 0 then 0.0 else Total(values[..|values| - 1]) + values[|values| - 1]
  }

  /** The nitrogen sum of readings built from `values` is the total of the values. */
  lemma {:induction false} SumOfReadings(service: nat, values: seq<real>)
    ensures SumOf(Readings(service, values), Some(Nitrogen())) == Total(values)
  {
    if |values| > 0 {
      var rs := Readings(service, values);
      var init := values[..|values| - 1];
      assert rs[..|rs| - 1] == Readings(service, init);
      SumOfReadings(service, init);
    }
  }

  /** The total of five values. */
  lemma TotalOfFive(values: seq<real>)
    requires |values| == 5
    ensures Total(values) == values[0] + values[1] + values[2] + values[3] + values[4]
  {
    assert values[..1][..0] == [];
    assert Total(values[..1]) == values[0];
    assert values[..2][..1] == values[..1];
    assert Total(values[..2]) == Total(values[..1]) + values[1];
    assert values[..3][..2] == values[..2];
    assert Total(values[..3]) == Total(values[..2]) + values[2];
    assert values[..4][..3] == values[..3];
    assert Total(values[..4]) == Total(values[..3]) + values[3];
    assert values[..4] == values[..|values| - 1];
  }

  function ServiceOnLine(id: nat, line: nat, state: State): Service {
    Service(id, "S", None, None, None, line, None, state, [], [], false, None, {1})
  }

  /**
   * The done check asks for any done service, not all: with two services
   * on one origin line, one done and one still a draft, the check passes.
   */
  lemma OneDoneServiceIsEnough()
    ensures var db := [ServiceOnLine(0, 1, Done), ServiceOnLine(1, 1, Draft)];
            CheckServicesDone(db, {1}) && !AllServicesDone(db, {1})
  {
    var db := [ServiceOnLine(0, 1, Done), ServiceOnLine(1, 1, Draft)];
    assert db[0].moveLine in {1} && db[0].state == Done;
    assert db[1].moveLine in {1} && db[1].state != Done;
  }
}

=== FILE: reading_groups.dfy ===
/**
 * Readings: the name a reading displays, and the grouping step of result
 * computation, one `[sum, count]` tally per element kept in a dict whose
 * keys appear in order of first reading.
 */
module ReadingGroups {
  import opened Wrappers
  import opened Records
  import opened Recordsets

  /** `_compute_name`: "[element] value", empty when the reading has no element. */
  function ReadingName(r: Reading, toStr: RealToString): (name: string)
    ensures name == "" <==> r.element.None?
    ensures r.element.Some? ==>
              var prefix := "[" + r.element.value.name + "] ";
              && |name| == |prefix| + |toStr(r.value)|
              && name[..|prefix|] == prefix
              && name[|prefix|..] == toStr(r.value)
  {
    if r.element.Some? then "[" + r.element.value.name + "] " + toStr(r.value) else ""
  }

  /** In "[a] x" with no ']' in `a`, the first ']' closes `a`, so `a` and `x` can be read back. */
  lemma BracketedParts(a: string, x: string)
    requires ']' !in a
    ensures var s := "[" + a + "] " + x;
            && FirstIndex(s, ']') == |a| + 1
            && s[1..|a| + 1] == a
            && s[|a| + 3..] == x
  {
    var s := "[" + a + "] " + x;
    assert forall j :: 0 <= j < |a| ==> s[j + 1] == a[j];
    assert s[|a| + 1] == ']';
  }

  /**
   * When element names contain no ']', a reading's name determines its
   * element name and its formatted value.
   */
  lemma ReadingNameDeterminesParts(r1: Reading, r2: Reading, toStr: RealToString)
    requires r1.element.Some? && ']' !in r1.element.value.name
    requires r2.element.Some? && ']' !in r2.element.value.name
    requires ReadingName(r1, toStr) == ReadingName(r2, toStr)
    ensures r1.element.value.name == r2.element.value.name
    ensures toStr(r1.value) == toStr(r2.value)
  {
    BracketedParts(r1.element.value.name, toStr(r1.value));
    BracketedParts(r2.element.value.name, toStr(r2.value));
  }

  /** The running sum and count kept for one element. */
  datatype Tally = Tally(element: Option<Element>, sum: real, count: nat)

  function ElementsOf(rs: seq<Reading>): seq<Option<Element>> {
    seq(|rs|, i requires 0 <= i < |rs| => rs[i].element)
  }

  function Keys(ts: seq<Tally>): seq<Option<Element>> {
    seq(|ts|, i requires 0 <= i < |ts| => ts[i].element)
  }

  /** Reference definition: the sum of the values of the readings of `e`. */
  function SumOf(rs: seq<Reading>, e: Option<Element>): real {
    if |rs| == 0 then 0.0
    else SumOf(rs[..|rs| - 1], e) + (if rs[|rs| - 1].element == e then rs[|rs| - 1].value else 0.0)
  }

  /** Reference definition: the number of readings of `e`. */
  function CountOf(rs: seq<Reading>, e: Option<Element>): nat {
    if |rs| == 0 then 0
    else CountOf(rs[..|rs| - 1], e) + (if rs[|rs| - 1].element == e then 1 else 0)
  }

  /** Position of `e` among `keys`, or `|keys|` when absent: the dict lookup. */
  function IndexOf(keys: seq<Option<Element>>, e: Option<Element>): (k: nat)
    ensures k <= |keys|
    ensures k < |keys| ==> keys[k] == e
    ensures k == |keys| <==> e !in keys
    ensures forall j :: 0 <= j < k ==> keys[j] != e
  {
    if |keys| == 0 then 0
    else if keys[0] == e then 0
    else 1 + IndexOf(keys[1..], e)
  }

  /** Adds one reading to the tallies, opening a new tally at the end for a new element. */
  function Accumulate(ts: seq<Tally>, r: Reading): (out: seq<Tally>)
    requires NoDup(Keys(ts))
    ensures Keys(out) == if r.element in Keys(ts) then Keys(ts) else Keys(ts) + [r.element]
    ensures forall i :: 0 <= i < |ts| ==>
              && out[i].sum == ts[i].sum + (if ts[i].element == r.element then r.value else 0.0)
              && out[i].count == ts[i].count + (if ts[i].element == r.element then 1 else 0)
    ensures |out| > |ts| ==> out[|ts|] == Tally(r.element, r.value, 1)
  {
    var k := IndexOf(Keys(ts), r.element);
    if k == |ts| then
      assert forall i :: 0 <= i < |ts| ==> ts[i].element != r.element by {
        forall i | 0 <= i < |ts| ensures ts[i].element != r.element {
          assert Keys(ts)[i] == ts[i].element;
        }
      }
      assert Keys(ts + [Tally(r.element, r.value, 1)]) == Keys(ts) + [r.element];
      ts + [Tally(r.element, r.value, 1)]
    else
      assert forall i :: 0 <= i < |ts| && i != k ==> ts[i].element != r.element by {
        forall i | 0 <= i < |ts| && i != k ensures ts[i].element != r.element {
          assert Keys(ts)[i] != Keys(ts)[k];
        }
      }
      var out := ts[k := ts[k].(sum := ts[k].sum + r.value, count := ts[k].count + 1)];
      assert Keys(out) == Keys(ts);
      out
  }

  /** The dict built by the loop over a service's readings, as a sequence of tallies. */
  function GroupReadings(rs: seq<Reading>): (ts: seq<Tally>)
    ensures Keys(ts) == Dedup(ElementsOf(rs))
    ensures forall i :: 0 <= i < |ts| ==>
              ts[i].sum == SumOf(rs, ts[i].element) && ts[i].count == CountOf(rs, ts[i].element)
  {
    if |rs| == 0 then []
    else
      var init := rs[..|rs| - 1];
      var last := rs[|rs| - 1];
      var prev := GroupReadings(init);
      assert rs == init + [last];
      GroupStep(init, last, prev);
      Accumulate(prev, last)
  }

  /** One iteration of the grouping loop keeps the tallies exact. */
  lemma GroupStep(init: seq<Reading>, last: Reading, prev: seq<Tally>)
    requires Keys(prev) == Dedup(ElementsOf(init))
    requires forall i :: 0 <= i < |prev| ==>
               prev[i].sum == SumOf(init, prev[i].element) && prev[i].count == CountOf(init, prev[i].element)
    ensures NoDup(Keys(prev))
    ensures Keys(Accumulate(prev, last)) == Dedup(ElementsOf(init + [last]))
    ensures var ts := Accumulate(prev, last);
            forall i :: 0 <= i < |ts| ==>
              ts[i].sum == SumOf(init + [last], ts[i].element) && ts[i].count == CountOf(init + [last], ts[i].element)
  {
    var rs := init + [last];
    assert rs[..|rs| - 1] == init;
    assert ElementsOf(rs) == ElementsOf(init) + [last.element];
    assert ElementsOf(rs)[..|rs| - 1] == ElementsOf(init);
    var ts := Accumulate(prev, last);
    forall i | 0 <= i < |ts|
      ensures ts[i].sum == SumOf(rs, ts[i].element) && ts[i].count == CountOf(rs, ts[i].element)
    {
      assert Keys(ts)[i] == ts[i].element;
      if i < |prev| {
        assert Keys(prev)[i] == prev[i].element;
      } else {
        assert ts[i] == Tally(last.element, last.value, 1);
        assert last.element !in ElementsOf(init);
        AbsentHasNoReadings(init, last.element);
      }
    }
  }

  /** An element with no reading contributes nothing. */
  lemma {:induction false} AbsentHasNoReadings(rs: seq<Reading>, e: Option<Element>)
    ensures e !in ElementsOf(rs) ==> CountOf(rs, e) == 0 && SumOf(rs, e) == 0.0
  {
    if |rs| > 0 && e !in ElementsOf(rs) {
      assert ElementsOf(rs[..|rs| - 1]) == ElementsOf(rs)[..|rs| - 1];
      assert rs[|rs| - 1].element == ElementsOf(rs)[|rs| - 1];
      AbsentHasNoReadings(rs[..|rs| - 1], e);
    }
  }

  /** An element has readings exactly when some reading names it. */
  lemma {:induction false} CountPositiveIffPresent(rs: seq<Reading>, e: Option<Element>)
    ensures CountOf(rs, e) > 0 <==> e in ElementsOf(rs)
  {
    if |rs| > 0 {
      assert ElementsOf(rs) == ElementsOf(rs[..|rs| - 1]) + [rs[|rs| - 1].element];
      CountPositiveIffPresent(rs[..|rs| - 1], e);
    }
  }

  /** Counting distributes over concatenation. */
  lemma {:induction false} CountOfAppend(a: seq<Reading>, b: seq<Reading>, e: Option<Element>)
    ensures CountOf(a + b, e) == CountOf(a, e) + CountOf(b, e)
    ensures SumOf(a + b, e) == SumOf(a, e) + SumOf(b, e)
  {
    if |b| > 0 {
      assert (a + b)[..|a + b| - 1] == a + b[..|b| - 1];
      CountOfAppend(a, b[..|b| - 1], e);
    } else {
      assert a + b == a;
    }
  }

  /** When every reading of `e` has value `v`, the readings of `e` sum to count times `v`. */
  lemma {:induction false} ConstantReadingsSum(rs: seq<Reading>, e: Option<Element>, v: real)
    requires forall i :: 0 <= i < |rs| && rs[i].element == e ==> rs[i].value == v
    ensures SumOf(rs, e) == CountOf(rs, e) as real * v
  {
    if |rs| > 0 {
      ConstantReadingsSum(rs[..|rs| - 1], e, v);
    }
  }
}

=== FILE: records.dfy ===
/**
 * The records the certification add-on reads and writes, as immutable values.
 * A many2one field that may be empty is an `Option`; a one2many is a `seq`
 * in creation order; a many2many of ids is a `set`.
 */
module Records {
  import opened Wrappers
  import opened Recordsets

  /** Unit of measure (`uom.uom`). */
  datatype Uom = Uom(id: nat, name: string)

  /** `certification.element`: density is free text because it may be "n/a". */
  datatype Element = Element(id: nat, name: string, shortName: string, density: string)

  /** `certification.labeled.value`: a manufacturer-declared value for one element of a lot. */
  datatype LabeledValue = LabeledValue(
    id: nat,
    sequence: int,
    element: Element,
    value: real,
    uom: Uom,
    secondValue: real,
    secondUom: Option<Uom>)

  /** `stock.production.lot` with the fields this add-on gives it. */
  datatype Lot = Lot(
    id: nat,
    name: string,
    ref: string,
    labels: seq<LabeledValue>,
    manufacturer: Option<string>)

  /** `res.company` with its reading unit of measure, which may be unset. */
  datatype Company = Company(id: nat, readingUom: Option<Uom>)

  datatype Product = Product(id: nat, displayName: string)

  /** `certification.reading`: one measurement; its element is not a required field. */
  datatype Reading = Reading(service: nat, element: Option<Element>, value: real)

  datatype Verdict = Pass | Fail

  /** `certification.result`: the evaluation of one element of one service. */
  datatype CertResult = CertResult(
    service: nat,
    element: Option<Element>,
    sequence: int,
    average: real,
    diff: real,
    percent: real,
    state: Verdict)

  datatype State = Draft | WorkingOn | Done

  /** `certification.service`, the aggregate root of one certification run. */
  datatype Service = Service(
    id: nat,
    name: string,
    company: Option<Company>,
    product: Option<Product>,
    lot: Option<Lot>,
    moveLine: nat,
    groupId: Option<nat>,
    state: State,
    readings: seq<Reading>,
    results: seq<CertResult>,
    isPass: bool,
    dateCalibration: Option<int>,
    standards: set<nat>)

  /** All certification services, a service's id being its index. */
  type Db = seq<Service>

  datatype SaleOrder = SaleOrder(id: nat, dateCalibration: Option<int>)

  datatype ProcurementGroup = ProcurementGroup(id: nat, sale: Option<SaleOrder>)

  datatype Location = Location(id: nat, createService: bool)

  /** A move that precedes another one in the chain, with the ids of its move lines. */
  datatype OrigMove = OrigMove(id: nat, lineIds: set<nat>)

  datatype Move = Move(id: nat, name: string, group: Option<ProcurementGroup>, origMoves: seq<OrigMove>)

  /**
   * `stock.move.line` with the fields this add-on reads. `createService`
   * mirrors the destination location's flag; `location` is the source.
   */
  datatype MoveLine = MoveLine(
    id: nat,
    name: string,
    move: Move,
    product: Option<Product>,
    serviceLot: Option<Lot>,
    location: Option<Location>,
    createService: bool,
    productUomQty: real,
    qtyDone: real,
    pickingCompany: Option<Company>)

  /** `stock.picking`; `createService` mirrors the destination location's flag. */
  datatype Picking = Picking(id: nat, createService: bool, moves: seq<Move>, lines: seq<MoveLine>)

  /** The exceptions that abort an action (and roll its transaction back). */
  datatype Error =
    | MissingReadingUom
    | TooFewReadings(element: Option<Element>, required: nat)
    | MissingStandard
    | NoLinesToMove
    | CertificationNotDone
    | MissingServicedSerial(products: seq<Option<Product>>)
    | UndefinedName(name: string)
    | MissingArgument(name: string)

  /** Python's `str(float)`: its formatting is not modelled, the caller supplies it. */
  type RealToString = real -> string

  /** Number of readings generated per element and required before evaluating. */
  function RequiredReadingCount(): (n: nat)
    ensures n == 5
  {
    5
  }

  /** An element passes when its deviation from the label is below this percentage. */
  const PassThreshold: real := 10.0

  /** `certification.element` declares no `_order`, so Odoo reads elements back by id. */
  function ElementKey(e: Element): Key { Key(0, e.id) }

  /** `_order = 'sequence,id'` of labeled values. */
  function LabelKey(l: LabeledValue): Key { Key(l.sequence, l.id) }

  /** `_order = 'sequence'` of results; ties keep creation order. */
  function ResultKey(r: CertResult): Key { Key(r.sequence, 0) }

  /** The labeled values of a service's lot (none when the lot is empty). */
  function LotLabels(s: Service): seq<LabeledValue> {
    if s.lot.None? then [] else s.lot.value.labels
  }
}

=== FILE: recordsets.dfy ===
/**
 * The three recordset operations the certification core relies on:
 * reading a one2many back in a model's `_order`, `filtered`, and the
 * first-occurrence deduplication of `mapped` (and of Python dict keys).
 */
module Recordsets {

  /** A record's position under an `_order` of the form 'sequence,id'. */
  datatype Key = Key(sequence: int, id: int)

  /** Lexicographic order on keys: by sequence, then by id. */
  predicate KeyLe(a: Key, b: Key) {
    a.sequence < b.sequence || (a.sequence == b.sequence && a.id <= b.id)
  }

  predicate SortedBy<T>(s: seq<T>, key: T -> Key) {
    forall i, j :: 0 <= i < j < |s| ==> KeyLe(key(s[i]), key(s[j]))
  }

  /** Inserts `x` into sorted `s` before the first element it does not follow. */
  function Insert<T(!new)>(x: T, s: seq<T>, key: T -> Key): (r: seq<T>)
    requires SortedBy(s, key)
    ensures SortedBy(r, key)
    ensures multiset(r) == multiset(s) + multiset{x}
    ensures forall y :: y in r <==> y == x || y in s
  {
    if |s| == 0 then [x]
    else if KeyLe(key(x), key(s[0])) then [x] + s
    else
      var rest := Insert(x, s[1..], key);
      assert s == [s[0]] + s[1..];
      assert forall y :: y in s[1..] ==> KeyLe(key(s[0]), key(y)) by {
        forall y | y in s[1..] ensures KeyLe(key(s[0]), key(y)) {
          HeadOfSortedIsLeast(s, key, y);
        }
      }
      ConsSorted(s[0], rest, key);
      [s[0]] + rest
  }

  /** Putting a lower bound in front of a sorted sequence keeps it sorted. */
  lemma ConsSorted<T>(h: T, rest: seq<T>, key: T -> Key)
    requires SortedBy(rest, key)
    requires forall y :: y in rest ==> KeyLe(key(h), key(y))
    ensures SortedBy([h] + rest, key)
  {
    var r := [h] + rest;
    forall i, j | 0 <= i < j < |r|
      ensures KeyLe(key(r[i]), key(r[j]))
    {
      assert r[j] == rest[j - 1];
      if i > 0 {
        assert r[i] == rest[i - 1];
      } else {
        assert rest[j - 1] in rest;
      }
    }
  }

  /** The records of `s` in the order the ORM reads them back. */
  function SortBy<T(!new)>(s: seq<T>, key: T -> Key): (r: seq<T>)
    ensures SortedBy(r, key)
    ensures multiset(r) == multiset(s)
    ensures forall y :: y in r <==> y in s
  {
    if |s| == 0 then []
    else
      assert s == [s[0]] + s[1..];
      Insert(s[0], SortBy(s[1..], key), key)
  }

  /** `filtered(p)`: the records satisfying `p`, in their original order. */
  function Filter<T(!new)>(s: seq<T>, p: T -> bool): (r: seq<T>)
    ensures |r| <= |s|
    ensures forall y :: y in r <==> y in s && p(y)
    ensures forall i :: 0 <= i < |r| ==> p(r[i])
  {
    if |s| == 0 then []
    else if p(s[0]) then [s[0]] + Filter(s[1..], p)
    else Filter(s[1..], p)
  }

  /** A filter is non-empty exactly when some element passes it. */
  lemma FilterNonEmpty<T(!new)>(s: seq<T>, p: T -> bool)
    ensures |Filter(s, p)| > 0 <==> exists i :: 0 <= i < |s| && p(s[i])
  {
    if exists i :: 0 <= i < |s| && p(s[i]) {
      var i :| 0 <= i < |s| && p(s[i]);
      assert s[i] in Filter(s, p);
    }
    if |Filter(s, p)| > 0 {
      assert Filter(s, p)[0] in s;
    }
  }

  /**
   * Filtering a concatenation filters each part in place: with the one-element
   * case of the definition, this fixes the order and the number of times each
   * kept record appears.
   */
  lemma {:induction false} FilterAppend<T(!new)>(a: seq<T>, b: seq<T>, p: T -> bool)
    ensures Filter(a + b, p) == Filter(a, p) + Filter(b, p)
  {
    if |a| > 0 {
      assert (a + b)[1..] == a[1..] + b;
      FilterAppend(a[1..], b, p);
    } else {
      assert a + b == b;
    }
  }

  /** Filtering keeps the relative order, so a sorted recordset stays sorted. */
  lemma {:induction false} FilterKeepsSorted<T(!new)>(s: seq<T>, p: T -> bool, key: T -> Key)
    requires SortedBy(s, key)
    ensures SortedBy(Filter(s, p), key)
  {
    if |s| > 0 {
      FilterKeepsSorted(s[1..], p, key);
      var rest := Filter(s[1..], p);
      if p(s[0]) {
        forall j | 0 <= j < |rest|
          ensures KeyLe(key(s[0]), key(rest[j]))
        {
          assert rest[j] in s[1..];
          var k :| 0 <= k < |s[1..]| && s[1..][k] == rest[j];
          assert s[k + 1] == rest[j];
        }
        forall y | y in rest
          ensures KeyLe(key(s[0]), key(y))
        {
          var j :| 0 <= j < |rest| && rest[j] == y;
        }
        ConsSorted(s[0], rest, key);
      }
    }
  }

  /** The first element of a sorted sequence is minimal. */
  lemma HeadOfSortedIsLeast<T>(s: seq<T>, key: T -> Key, y: T)
    requires SortedBy(s, key)
    requires y in s
    ensures KeyLe(key(s[0]), key(y))
  {
    var k :| 0 <= k < |s| && s[k] == y;
    if k > 0 {
      assert KeyLe(key(s[0]), key(s[k]));
    }
  }

  ghost predicate NoDup<T>(s: seq<T>) {
    forall i, j :: 0 <= i < j < |s| ==> s[i] != s[j]
  }

  lemma NoDupTail<T>(s: seq<T>)
    requires NoDup(s) && |s| > 0
    ensures NoDup(s[1..])
  {
    forall i, j | 0 <= i < j < |s[1..]|
      ensures s[1..][i] != s[1..][j]
    {
      assert s[1..][i] == s[i + 1] && s[1..][j] == s[j + 1];
    }
  }

  /** In a sequence without duplicates every value occurs at most once. */
  lemma {:induction false} NoDupMultiplicity<T>(s: seq<T>, x: T)
    requires NoDup(s)
    ensures multiset(s)[x] == if x in s then 1 else 0
  {
    if |s| > 0 {
      assert s == [s[0]] + s[1..];
      NoDupTail(s);
      NoDupMultiplicity(s[1..], x);
      if x == s[0] {
        assert x !in s[1..] by {
          forall j | 0 <= j < |s[1..]| ensures s[1..][j] != x {
            assert s[1..][j] == s[j + 1];
          }
        }
      }
    }
  }

  /** The position of the first occurrence of `x` in `s`, or `|s|` when there is none. */
  function FirstIndex<T(==)>(s: seq<T>, x: T): (k: nat)
    ensures k <= |s|
    ensures k < |s| <==> x in s
    ensures k < |s| ==> s[k] == x
    ensures forall j :: 0 <= j < k ==> s[j] != x
  {
    if |s| == 0 then 0
    else if s[0] == x then 0
    else
      var k := FirstIndex(s[1..], x);
      assert forall j :: 1 <= j < |s| ==> s[j] == s[1..][j - 1];
      1 + k
  }

  /** Appending to a sequence does not move the first occurrence of a value already in it. */
  lemma FirstIndexOfPrefix<T>(p: seq<T>, q: seq<T>, x: T)
    ensures x in p ==> FirstIndex(p + q, x) == FirstIndex(p, x)
    ensures x !in p ==> FirstIndex(p + q, x) >= |p|
  {
    assert forall j :: 0 <= j < |p| ==> (p + q)[j] == p[j];
    if x in p {
      assert (p + q)[FirstIndex(p, x)] == x;
    }
  }

  /** A value at two positions occurs at least twice. */
  lemma RepeatedMultiplicity<T>(s: seq<T>, i: nat, j: nat)
    requires i < j < |s|
    ensures s[i] == s[j] ==> multiset(s)[s[i]] >= 2
  {
    assert s == s[..j] + [s[j]] + s[j + 1..];
    assert s[i] in s[..j];
  }

  /** Reordering a sequence without duplicates leaves none. */
  lemma NoDupPermutation<T>(a: seq<T>, b: seq<T>)
    requires NoDup(a)
    requires multiset(a) == multiset(b)
    ensures NoDup(b)
  {
    forall i, j | 0 <= i < j < |b|
      ensures b[i] != b[j]
    {
      RepeatedMultiplicity(b, i, j);
      NoDupMultiplicity(a, b[i]);
    }
  }

  /**
   * The distinct values of `s` in order of first occurrence: what `mapped`
   * returns for a many2one field and what the keys of a dict filled in
   * a loop are.
   */
  function Dedup<T(==,!new)>(s: seq<T>): (r: seq<T>)
    ensures NoDup(r)
    ensures forall y :: y in r <==> y in s
    ensures forall i, j {:trigger FirstIndex(s, r[i]), FirstIndex(s, r[j])} ::
              0 <= i < j < |r| ==> FirstIndex(s, r[i]) < FirstIndex(s, r[j])
  {
    if |s| == 0 then []
    else
      var init := s[..|s| - 1];
      var d := Dedup(init);
      var last := s[|s| - 1];
      assert s == init + [last];
      forall y | y in init {
        FirstIndexOfPrefix(init, [last], y);
      }
      if last in d then d
      else
        FirstIndexOfPrefix(init, [last], last);
        d + [last]
  }

  /** Of two distinct values of `s`, the one read first comes first in `Dedup(s)`. */
  lemma DedupIndexOrder<T(!new)>(s: seq<T>, i: nat, j: nat)
    requires i < |Dedup(s)| && j < |Dedup(s)|
    requires FirstIndex(s, Dedup(s)[i]) < FirstIndex(s, Dedup(s)[j])
    ensures i < j
  {
  }
}

=== FILE: result_computation.dfy ===
/**
 * `action_compute_result`: average the readings of each element, compare the
 * average with the lot's first labeled value for that element (converted to
 * the company's reading unit), and classify the element as pass or fail.
 */
module ResultComputation {
  import opened Wrappers
  import opened Recordsets
  import opened Records
  import opened ReadingGroups
  import opened ServiceLifecycle

  /** `_compute_quantity(value, to_uom, round=False)` called on `from_uom`; its internals are not modelled. */
  type Converter = (real, Uom, Uom) -> real

  function Abs(x: real): real { if x < 0.0 then -x else x }

  /** The company's reading unit of measure, when both the company and the setting exist. */
  function ReadingUomOf(s: Service): Option<Uom> {
    if s.company.None? then None else s.company.value.readingUom
  }

  /**
   * The labeled value of `e` that `labeled_value_ids.filtered(...)[0]` picks:
   * the least in the `_order` 'sequence,id', the earliest one on a tie.
   */
  function FirstLabel(labels: seq<LabeledValue>, e: Option<Element>): (r: Option<LabeledValue>)
    ensures r.Some? <==> exists l :: l in labels && Some(l.element) == e
    ensures r.Some? ==> r.value in labels && Some(r.value.element) == e
    ensures r.Some? ==> forall l :: l in labels && Some(l.element) == e ==> KeyLe(LabelKey(r.value), LabelKey(l))
  {
    if |labels| == 0 then None
    else
      var rest := FirstLabel(labels[1..], e);
      assert forall l :: l in labels <==> l == labels[0] || l in labels[1..];
      if Some(labels[0].element) == e && (rest.None? || KeyLe(LabelKey(labels[0]), LabelKey(rest.value)))
      then Some(labels[0])
      else rest
  }

  function LabelOf(e: Option<Element>): LabeledValue -> bool {
    (l: LabeledValue) => Some(l.element) == e
  }

  /**
   * With distinct record ids, `FirstLabel` is exactly the head of the lot's
   * labels read in 'sequence,id' order and filtered on the element.
   */
  lemma FirstLabelIsHeadOfOrderedFilter(labels: seq<LabeledValue>, e: Option<Element>)
    requires forall i, j :: 0 <= i < j < |labels| ==> labels[i].id != labels[j].id
    ensures var matching := Filter(SortBy(labels, LabelKey), LabelOf(e));
            FirstLabel(labels, e) == if |matching| == 0 then None else Some(matching[0])
  {
    var sorted := SortBy(labels, LabelKey);
    var matching := Filter(sorted, LabelOf(e));
    var first := FirstLabel(labels, e);
    FilterKeepsSorted(sorted, LabelOf(e), LabelKey);
    if first.Some? {
      assert first.value in matching;
      var h := matching[0];
      assert h in sorted && LabelOf(e)(h);
      HeadOfSortedIsLeast(matching, LabelKey, first.value);
      assert KeyLe(LabelKey(first.value), LabelKey(h));
      assert first.value.id == h.id;
      SameIdSameLabel(labels, first.value, h);
    }
  }

  /** Two labels of a lot with the same id are the same record. */
  lemma SameIdSameLabel(labels: seq<LabeledValue>, a: LabeledValue, b: LabeledValue)
    requires forall i, j :: 0 <= i < j < |labels| ==> labels[i].id != labels[j].id
    requires a in labels && b in labels && a.id == b.id
    ensures a == b
  {
    var i :| 0 <= i < |labels| && labels[i] == a;
    var j :| 0 <= j < |labels| && labels[j] == b;
  }

  /** `sum / count` for one element. */
  function Mean(sum: real, count: nat): real
    requires count > 0
  {
    sum / count as real
  }

  /** `(diff / label) * 100.0 if label else 0.0`. */
  function PercentOf(diff: real, converted: real): real {
    if converted != 0.0 then diff / converted * 100.0 else 0.0
  }

  function Classify(percent: real): Verdict {
    if percent < PassThreshold then Pass else Fail
  }

  /** The result record created for one tally. */
  function EvaluateTally(t: Tally, service: nat, labels: seq<LabeledValue>, uom: Uom, convert: Converter): CertResult
    requires t.count > 0
  {
    var average := Mean(t.sum, t.count);
    var first := FirstLabel(labels, t.element);
    var sequence := if first.Some? then first.value.sequence else 0;
    var converted := if first.Some? then convert(first.value.value, first.value.uom, uom) else 0.0;
    var diff := if first.Some? then Abs(average - converted) else 0.0;
    var percent := PercentOf(diff, converted);
    CertResult(service, t.element, sequence, average, diff, percent, Classify(percent))
  }

  /** Index of the first tally with fewer than `required` readings, or `|ts|`. */
  function FirstShortIndex(ts: seq<Tally>, required: nat): (k: nat)
    ensures k <= |ts|
    ensures k < |ts| ==> ts[k].count < required
    ensures forall j :: 0 <= j < k ==> ts[j].count >= required
  {
    if |ts| == 0 then 0
    else if ts[0].count < required then 0
    else 1 + FirstShortIndex(ts[1..], required)
  }

  /** The service-level verdict: at least one result and none of them failing. */
  predicate AllPass(results: seq<CertResult>) {
    |results| > 0 && forall i :: 0 <= i < |results| ==> results[i].state != Fail
  }

  /** Some element of the readings has fewer readings than required. */
  ghost predicate HasShortElement(s: Service) {
    exists i :: 0 <= i < |s.readings| && CountOf(s.readings, s.readings[i].element) < RequiredReadingCount()
  }

  /**
   * What a result for element `r.element` must hold, stated from the
   * service's readings and lot directly rather than from the tallies.
   */
  ghost predicate ResultFor(r: CertResult, s: Service, uom: Uom, convert: Converter) {
    var e := r.element;
    var first := FirstLabel(LotLabels(s), e);
    && r.service == s.id
    && CountOf(s.readings, e) >= RequiredReadingCount()
    && r.average == Mean(SumOf(s.readings, e), CountOf(s.readings, e))
    && (first.None? ==> r.sequence == 0 && r.diff == 0.0 && r.percent == 0.0)
    && (first.Some? ==>
          var converted := convert(first.value.value, first.value.uom, uom);
          && r.sequence == first.value.sequence
          && r.diff == Abs(r.average - converted)
          && r.percent == PercentOf(r.diff, converted))
    && (r.state == Pass <==> r.percent < PassThreshold)
  }

  function ResultElements(results: seq<CertResult>): seq<Option<Element>> {
    seq(|results|, i requires 0 <= i < |results| => results[i].element)
  }

  /**
   * `action_compute_result` on one service. On failure the transaction rolls
   * back, so no state is returned; on success the old results are replaced.
   */
  function ComputeResult(s: Service, convert: Converter): (r: Result<Service, Error>)
    ensures r == Failure(MissingReadingUom) <==> ReadingUomOf(s).None?
    ensures r.Failure? ==> r.error == MissingReadingUom || r.error.TooFewReadings? || r.error == MissingStandard
    ensures ReadingUomOf(s).Some? ==> (r.Failure? && r.error.TooFewReadings? <==> HasShortElement(s))
    ensures r.Failure? && r.error.TooFewReadings? ==>
              && r.error.required == RequiredReadingCount()
              && r.error.element in ElementsOf(s.readings)
              && CountOf(s.readings, r.error.element) < RequiredReadingCount()
    ensures r.Success? ==> ReadingUomOf(s).Some? && !HasShortElement(s)
    ensures r.Success? ==> r.value == s.(results := r.value.results, isPass := r.value.isPass)
    ensures r.Success? ==> ResultElements(r.value.results) == Dedup(ElementsOf(s.readings))
    ensures r.Success? ==> forall i :: 0 <= i < |r.value.results| ==>
              ResultFor(r.value.results[i], s, ReadingUomOf(s).value, convert)
    ensures r.Success? ==> r.value.isPass == (s.isPass || AllPass(r.value.results))
    ensures r == Failure(MissingStandard) <==>
              && ReadingUomOf(s).Some? && !HasShortElement(s) && s.standards == {}
              && AllPass(Evaluate(s, ReadingUomOf(s).value, convert))
  {
    var uom :- ReadingUomOf(s).ToResult(MissingReadingUom);
    var ts := GroupReadings(s.readings);
    var k := FirstShortIndex(ts, RequiredReadingCount());
    ShortElementIffShortTally(s.readings, ts, k);
    if k < |ts| then Failure(TooFewReadings(ts[k].element, RequiredReadingCount()))
    else
      var results := Evaluate(s, uom, convert);
      EvaluateMeetsResultFor(s, uom, convert);
      var s' := s.(results := results);
      if AllPass(results) then WriteOne(s', Vals(None, Some(true), None))
      else Success(s')
  }

  /** One result per tally, in tally order. */
  function Evaluate(s: Service, uom: Uom, convert: Converter): (results: seq<CertResult>)
    requires !HasShortElement(s)
  {
    var ts := GroupReadings(s.readings);
    ShortElementIffShortTally(s.readings, ts, FirstShortIndex(ts, RequiredReadingCount()));
    seq(|ts|, i requires 0 <= i < |ts| => EvaluateTally(ts[i], s.id, LotLabels(s), uom, convert))
  }

  /**
   * The readings generated for a new or started service already satisfy the
   * count check: each element gets exactly the number the check requires.
   */
  lemma SeededServiceHasEnoughReadings(s: Service)
    ensures !HasShortElement(Seed(s))
    ensures !HasShortElement(StartSeed(s))
  {
    forall i | 0 <= i < |Seed(s).readings|
      ensures CountOf(Seed(s).readings, Seed(s).readings[i].element) >= RequiredReadingCount()
    {
      SeededReadingCount(s, Seed(s).readings[i]);
    }
    forall i | 0 <= i < |StartSeed(s).readings|
      ensures CountOf(StartSeed(s).readings, StartSeed(s).readings[i].element) >= RequiredReadingCount()
    {
      SeededReadingCount(s, StartSeed(s).readings[i]);
    }
  }

  /** A generated reading names a labeled element, which gets the required count in either order. */
  lemma SeededReadingCount(s: Service, r: Reading)
    requires r in Seed(s).readings || r in StartSeed(s).readings
    ensures CountOf(Seed(s).readings, r.element) == RequiredReadingCount()
    ensures CountOf(StartSeed(s).readings, r.element) == RequiredReadingCount()
  {
    var e := r.element.value;
    assert e in ElementIds(s) by {
      if r in StartSeed(s).readings {
        assert e in StoredElementIds(s);
        assert e in multiset(ElementIds(s));
      }
    }
    SeedCountsPerElement(s, e);
  }

  /**
   * The count error names the first short element in reading order: every
   * element first read before it has enough readings.
   */
  lemma TooFewNamesFirstShort(s: Service, convert: Converter)
    requires ComputeResult(s, convert).Failure? && ComputeResult(s, convert).error.TooFewReadings?
    ensures var named := ComputeResult(s, convert).error.element;
            var es := ElementsOf(s.readings);
            forall i :: 0 <= i < |s.readings| && FirstIndex(es, s.readings[i].element) < FirstIndex(es, named) ==>
              CountOf(s.readings, s.readings[i].element) >= RequiredReadingCount()
  {
    var ts := GroupReadings(s.readings);
    var k := FirstShortIndex(ts, RequiredReadingCount());
    assert ReadingUomOf(s).Some?;
    assert k < |ts| && ComputeResult(s, convert) == Failure(TooFewReadings(ts[k].element, RequiredReadingCount()));
    ShortTallyIsFirst(s.readings, ts, k);
  }

  /** Every element first read before the first short tally's element has enough readings. */
  lemma {:induction false} ShortTallyIsFirst(rs: seq<Reading>, ts: seq<Tally>, k: nat)
    requires ts == GroupReadings(rs)
    requires k == FirstShortIndex(ts, RequiredReadingCount()) && k < |ts|
    ensures var es := ElementsOf(rs);
            forall i :: 0 <= i < |rs| && FirstIndex(es, rs[i].element) < FirstIndex(es, ts[k].element) ==>
              CountOf(rs, rs[i].element) >= RequiredReadingCount()
  {
    var es := ElementsOf(rs);
    forall i | 0 <= i < |rs| && FirstIndex(es, rs[i].element) < FirstIndex(es, ts[k].element)
      ensures CountOf(rs, rs[i].element) >= RequiredReadingCount()
    {
      EarlierElementHasTally(rs, ts, k, i);
    }
  }

  /** The tally of an element read before the first short one lies before it, so it is not short. */
  lemma {:induction false} EarlierElementHasTally(rs: seq<Reading>, ts: seq<Tally>, k: nat, i: nat)
    requires ts == GroupReadings(rs)
    requires k == FirstShortIndex(ts, RequiredReadingCount()) && k < |ts|
    requires i < |rs| && FirstIndex(ElementsOf(rs), rs[i].element) < FirstIndex(ElementsOf(rs), ts[k].element)
    ensures CountOf(rs, rs[i].element) >= RequiredReadingCount()
  {
    var es := ElementsOf(rs);
    var keys := Keys(ts);
    assert keys == Dedup(es);
    var e := rs[i].element;
    assert es[i] == e;
    assert e in keys;
    var j := IndexOf(keys, e);
    assert keys[k] == ts[k].element;
    DedupIndexOrder(es, j, k);
    assert ts[j].element == e;
  }

  /** Every result of `Evaluate` satisfies `ResultFor`, one per distinct element. */
  lemma EvaluateMeetsResultFor(s: Service, uom: Uom, convert: Converter)
    requires !HasShortElement(s)
    ensures ResultElements(Evaluate(s, uom, convert)) == Dedup(ElementsOf(s.readings))
    ensures forall i :: 0 <= i < |Evaluate(s, uom, convert)| ==> ResultFor(Evaluate(s, uom, convert)[i], s, uom, convert)
  {
    var ts := GroupReadings(s.readings);
    var results := Evaluate(s, uom, convert);
    ShortElementIffShortTally(s.readings, ts, FirstShortIndex(ts, RequiredReadingCount()));
    assert ResultElements(results) == Keys(ts);
    forall i | 0 <= i < |results|
      ensures ResultFor(results[i], s, uom, convert)
    {
      TallyMeetsResultFor(ts[i], s, uom, convert);
    }
  }

  /** The result built from an exact tally satisfies `ResultFor`. */
  lemma {:induction false} TallyMeetsResultFor(t: Tally, s: Service, uom: Uom, convert: Converter)
    requires t.count >= RequiredReadingCount()
    requires t.sum == SumOf(s.readings, t.element) && t.count == CountOf(s.readings, t.element)
    ensures ResultFor(EvaluateTally(t, s.id, LotLabels(s), uom, convert), s, uom, convert)
  {
    var r := EvaluateTally(t, s.id, LotLabels(s), uom, convert);
    var first := FirstLabel(LotLabels(s), t.element);
    assert r.element == t.element && r.service == s.id;
    assert r.average == Mean(SumOf(s.readings, t.element), CountOf(s.readings, t.element));
    if first.Some? {
      var converted := convert(first.value.value, first.value.uom, uom);
      assert r.sequence == first.value.sequence;
      assert r.diff == Abs(r.average - converted);
      assert r.percent == PercentOf(r.diff, converted);
    } else {
      assert r.sequence == 0 && r.diff == 0.0 && r.percent == 0.0;
    }
    assert r.state == Pass <==> r.percent < PassThreshold;
  }

  /** A short tally exists exactly when some reading's element is short. */
  lemma ShortElementIffShortTally(rs: seq<Reading>, ts: seq<Tally>, k: nat)
    requires ts == GroupReadings(rs)
    requires k == FirstShortIndex(ts, RequiredReadingCount())
    ensures k < |ts| <==> exists i :: 0 <= i < |rs| && CountOf(rs, rs[i].element) < RequiredReadingCount()
    ensures k == |ts| ==> forall i :: 0 <= i < |ts| ==> ts[i].count >= RequiredReadingCount()
    ensures k < |ts| ==> ts[k].element in ElementsOf(rs)
  {
    if k < |ts| {
      ShortTallyHasReading(rs, ts, k);
    }
    if exists i :: 0 <= i < |rs| && CountOf(rs, rs[i].element) < RequiredReadingCount() {
      var i :| 0 <= i < |rs| && CountOf(rs, rs[i].element) < RequiredReadingCount();
      ShortReadingHasTally(rs, ts, i);
    }
  }

  /** A tally below the required count belongs to an element some reading names, and that element is short. */
  lemma {:induction false} ShortTallyHasReading(rs: seq<Reading>, ts: seq<Tally>, k: nat)
    requires ts == GroupReadings(rs)
    requires k < |ts| && ts[k].count < RequiredReadingCount()
    ensures ts[k].element in ElementsOf(rs)
    ensures exists i :: 0 <= i < |rs| && CountOf(rs, rs[i].element) < RequiredReadingCount()
  {
    assert Keys(ts)[k] == ts[k].element;
    var e := ts[k].element;
    assert e in ElementsOf(rs);
    var i :| 0 <= i < |rs| && ElementsOf(rs)[i] == e;
    assert rs[i].element == e;
  }

  /** A reading whose element is short has a tally below the required count. */
  lemma {:induction false} ShortReadingHasTally(rs: seq<Reading>, ts: seq<Tally>, i: nat)
    requires ts == GroupReadings(rs)
    requires i < |rs| && CountOf(rs, rs[i].element) < RequiredReadingCount()
    ensures exists j :: 0 <= j < |ts| && ts[j].count < RequiredReadingCount()
  {
    var e := rs[i].element;
    assert ElementsOf(rs)[i] == e;
    assert e in Keys(ts);
    var j :| 0 <= j < |ts| && Keys(ts)[j] == e;
    assert ts[j].count < RequiredReadingCount();
  }

  /** With a positive converted label, an element passes exactly when it deviates by less than a tenth of it. */
  lemma PassIffWithinTenthOfLabel(r: CertResult, s: Service, uom: Uom, convert: Converter)
    requires ResultFor(r, s, uom, convert)
    requires FirstLabel(LotLabels(s), r.element).Some?
    ensures var l := FirstLabel(LotLabels(s), r.element).value;
            var converted := convert(l.value, l.uom, uom);
            converted > 0.0 ==> (r.state == Pass <==> r.diff * 10.0 < converted)
  {
    var l := FirstLabel(LotLabels(s), r.element).value;
    var converted := convert(l.value, l.uom, uom);
    if converted > 0.0 {
      PercentBelowTen(r.diff, converted);
    }
  }

  lemma PercentBelowTen(diff: real, c: real)
    requires c > 0.0
    ensures diff / c * 100.0 < 10.0 <==> diff * 10.0 < c
  {
    var q := diff / c;
    assert q * c == diff;
    if q * 100.0 < 10.0 {
      assert q * c < (1.0 / 10.0) * c;
    }
    if diff * 10.0 < c {
      assert q * c * 10.0 < c;
    }
  }

  lemma NonNegativeOverNegative(diff: real, c: real)
    requires diff >= 0.0 && c < 0.0
    ensures diff / c * 100.0 <= 0.0
  {
    var q := diff / c;
    assert q * c == diff;
  }

  /** An element without a labeled value, or whose label converts to zero or less, always passes. */
  lemma NonPositiveLabelPasses(r: CertResult, s: Service, uom: Uom, convert: Converter)
    requires ResultFor(r, s, uom, convert)
    requires FirstLabel(LotLabels(s), r.element).None? ||
             (var l := FirstLabel(LotLabels(s), r.element).value; convert(l.value, l.uom, uom) <= 0.0)
    ensures r.state == Pass
    ensures r.percent <= 0.0
  {
    var first := FirstLabel(LotLabels(s), r.element);
    if first.Some? {
      var converted := convert(first.value.value, first.value.uom, uom);
      if converted < 0.0 {
        NonNegativeOverNegative(r.diff, converted);
      }
    }
  }

  /** When all readings of an element are equal, its average is that value. */
  lemma AverageOfEqualReadings(r: CertResult, s: Service, uom: Uom, convert: Converter, v: real)
    requires ResultFor(r, s, uom, convert)
    requires forall i :: 0 <= i < |s.readings| && s.readings[i].element == r.element ==> s.readings[i].value == v
    ensures r.average == v
  {
    ConstantReadingsSum(s.readings, r.element, v);
    var c := CountOf(s.readings, r.element) as real;
    assert r.average == Mean(SumOf(s.readings, r.element), CountOf(s.readings, r.element));
    assert r.average == SumOf(s.readings, r.element) / c;
    assert SumOf(s.readings, r.element) == c * v;
    assert c > 0.0;
    DivCancel(c, v);
  }

  lemma DivCancel(c: real, v: real)
    requires c > 0.0
    ensures (c * v) / c == v
  {
    var q := (c * v) / c;
    assert q * c == c * v;
    assert (q - v) * c == 0.0;
  }

  /** Recomputing from the same readings changes nothing: the results are a deterministic cache. */
  lemma ComputeResultIdempotent(s: Service, convert: Converter)
    requires ComputeResult(s, convert).Success?
    ensures ComputeResult(ComputeResult(s, convert).value, convert) == ComputeResult(s, convert)
  {
    var s1 := ComputeResult(s, convert).value;
    var uom := ReadingUomOf(s).value;
    assert ReadingUomOf(s1) == ReadingUomOf(s);
    assert !HasShortElement(s1);
    assert Evaluate(s1, uom, convert) == Evaluate(s, uom, convert);
    assert s1.results == Evaluate(s, uom, convert);
  }

  /** `result_ids` as read back: ordered by sequence (`_order = 'sequence'`), the same records. */
  function DisplayedResults(s: Service): (rs: seq<CertResult>)
    ensures forall i, j :: 0 <= i < j < |rs| ==> rs[i].sequence <= rs[j].sequence
    ensures multiset(rs) == multiset(s.results)
  {
    var rs := SortBy(s.results, ResultKey);
    assert forall i, j :: 0 <= i < j < |rs| ==> KeyLe(ResultKey(rs[i]), ResultKey(rs[j]));
    rs
  }
}

=== FILE: service_lifecycle.dfy ===
/**
 * The certification service's own actions: the in-house-standard check in
 * `write`, reading generation, and the draft -> working_on -> done buttons.
 * A set of ids stands for the recordset the action is called on.
 */
module ServiceLifecycle {
  import opened Wrappers
  import opened Recordsets
  import opened Records
  import opened ReadingGroups

  /** The values passed to `write`; an absent field is left as it is. */
  datatype Vals = Vals(state: Option<State>, isPass: Option<bool>, standards: Option<set<nat>>)

  function Apply(s: Service, v: Vals): Service {
    s.(state := if v.state.Some? then v.state.value else s.state,
       isPass := if v.isPass.Some? then v.isPass.value else s.isPass,
       standards := if v.standards.Some? then v.standards.value else s.standards)
  }

  /** `write` on one service: the values are stored, then a service left without standards is rejected. */
  function WriteOne(s: Service, v: Vals): (r: Result<Service, Error>)
    ensures r.Success? ==> r.value.standards != {}
    ensures r.Success? <==> (v.standards.Some? && v.standards.value != {}) || (v.standards.None? && s.standards != {})
    ensures r.Failure? ==> r.error == MissingStandard
    ensures r.Success? ==> v.state.Some? ==> r.value.state == v.state.value
    ensures r.Success? ==> v.isPass.Some? ==> r.value.isPass == v.isPass.value
    ensures r.Success? ==> v.standards.Some? ==> r.value.standards == v.standards.value
    ensures r.Success? ==> r.value.(state := s.state, isPass := s.isPass, standards := s.standards) == s
  {
    var s' := Apply(s, v);
    if s'.standards == {} then Failure(MissingStandard) else Success(s')
  }

  predicate ValidIds(db: Db, ids: set<nat>) {
    forall k :: k in ids ==> k < |db|
  }

  /** `write` on a recordset: every service in `ids` is written, and one rejection aborts all. */
  function Write(db: Db, ids: set<nat>, v: Vals): (r: Result<Db, Error>)
    requires ValidIds(db, ids)
    ensures r.Success? <==> forall k :: k in ids ==> WriteOne(db[k], v).Success?
    ensures r.Failure? ==> r.error == MissingStandard
    ensures r.Success? ==> |r.value| == |db|
    ensures r.Success? ==> forall k :: 0 <= k < |db| ==>
              r.value[k] == if k in ids then WriteOne(db[k], v).value else db[k]
  {
    if exists k :: k in ids && WriteOne(db[k], v).Failure? then Failure(MissingStandard)
    else Success(seq(|db|, k requires 0 <= k < |db| => if k in ids then WriteOne(db[k], v).value else db[k]))
  }

  /** Every service has at least one in-house standard: the invariant `write` enforces. */
  ghost predicate AllHaveStandards(db: Db) {
    forall k :: 0 <= k < |db| ==> db[k].standards != {}
  }

  /** No successful write can break the standards invariant, whatever it writes. */
  lemma WriteKeepsStandards(db: Db, ids: set<nat>, v: Vals)
    requires ValidIds(db, ids)
    requires AllHaveStandards(db)
    requires Write(db, ids, v).Success?
    ensures AllHaveStandards(Write(db, ids, v).value)
  {
    var db' := Write(db, ids, v).value;
    forall k | 0 <= k < |db'|
      ensures db'[k].standards != {}
    {
      if k in ids {
        assert WriteOne(db[k], v).Success?;
      }
    }
  }

  /** A write that does not touch the standards succeeds on services that all have one. */
  lemma WriteWithoutStandardsSucceeds(db: Db, ids: set<nat>, v: Vals)
    requires ValidIds(db, ids)
    requires AllHaveStandards(db)
    requires v.standards.None?
    ensures Write(db, ids, v).Success?
  {
  }

  /**
   * `_compute_element_ids`: the distinct elements of the lot's labeled values,
   * in label order. This is the order a service sees right after `create`,
   * while the computed value is still the one just assigned.
   */
  function ElementIds(s: Service): (es: seq<Element>)
    ensures NoDup(es)
    ensures forall e :: e in es <==> exists l :: l in LotLabels(s) && l.element == e
  {
    var sorted := SortBy(LotLabels(s), LabelKey);
    var mapped := seq(|sorted|, i requires 0 <= i < |sorted| => sorted[i].element);
    MappedElements(sorted, mapped);
    Dedup(mapped)
  }

  /** `mapped('element_id')` holds exactly the elements of the labels. */
  lemma MappedElements(ls: seq<LabeledValue>, mapped: seq<Element>)
    requires |mapped| == |ls|
    requires forall i :: 0 <= i < |ls| ==> mapped[i] == ls[i].element
    ensures forall e :: e in mapped <==> exists l :: l in ls && l.element == e
  {
    forall e
      ensures e in mapped <==> exists l :: l in ls && l.element == e
    {
      if e in mapped {
        var i :| 0 <= i < |mapped| && mapped[i] == e;
        assert ls[i] in ls;
      }
      if exists l :: l in ls && l.element == e {
        var l :| l in ls && l.element == e;
        var i :| 0 <= i < |ls| && ls[i] == l;
        assert mapped[i] == e;
      }
    }
  }

  /** `n` copies of one reading. */
  function Repeat(x: Reading, n: nat): (rs: seq<Reading>)
    ensures |rs| == n
    ensures forall i :: 0 <= i < n ==> rs[i] == x
    ensures forall e :: CountOf(rs, e) == if x.element == e then n else 0
  {
    if n == 0 then [] else
      var rs := Repeat(x, n - 1) + [x];
      assert rs[..n - 1] == Repeat(x, n - 1);
      rs
  }

  /** `generate_readings`: `n` zero-valued readings of this service for each element, element by element. */
  function GenerateReadings(service: nat, elements: seq<Element>, n: nat): (rs: seq<Reading>)
    ensures |rs| == n * |elements|
    ensures forall i :: 0 <= i < |rs| ==>
              && rs[i].service == service
              && rs[i].value == 0.0
              && rs[i].element.Some?
              && rs[i].element.value in elements
    ensures forall e :: CountOf(rs, Some(e)) == n * multiset(elements)[e]
    ensures CountOf(rs, None) == 0
  {
    if |elements| == 0 then []
    else
      var head := Repeat(Reading(service, Some(elements[0]), 0.0), n);
      var rest := GenerateReadings(service, elements[1..], n);
      GenerateStep(service, elements, n, head, rest);
      head + rest
  }

  /** The inductive step of `GenerateReadings`: the first element's readings, then the rest. */
  lemma GenerateStep(service: nat, elements: seq<Element>, n: nat, head: seq<Reading>, rest: seq<Reading>)
    requires |elements| > 0
    requires head == Repeat(Reading(service, Some(elements[0]), 0.0), n)
    requires |rest| == n * |elements[1..]|
    requires forall i :: 0 <= i < |rest| ==>
               && rest[i].service == service
               && rest[i].value == 0.0
               && rest[i].element.Some?
               && rest[i].element.value in elements[1..]
    requires forall e :: CountOf(rest, Some(e)) == n * multiset(elements[1..])[e]
    requires CountOf(rest, None) == 0
    ensures |head + rest| == n * |elements|
    ensures forall i :: 0 <= i < |head + rest| ==>
              && (head + rest)[i].service == service
              && (head + rest)[i].value == 0.0
              && (head + rest)[i].element.Some?
              && (head + rest)[i].element.value in elements
    ensures forall e :: CountOf(head + rest, Some(e)) == n * multiset(elements)[e]
    ensures CountOf(head + rest, None) == 0
  {
    MulSucc(n, |elements[1..]|);
    forall i | 0 <= i < |head + rest|
      ensures && (head + rest)[i].service == service
              && (head + rest)[i].value == 0.0
              && (head + rest)[i].element.Some?
              && (head + rest)[i].element.value in elements
    {
      if i < |head| {
        assert (head + rest)[i] == head[i];
      } else {
        assert (head + rest)[i] == rest[i - |head|];
      }
    }
    forall e
      ensures CountOf(head + rest, Some(e)) == n * multiset(elements)[e]
    {
      CountOfAppend(head, rest, Some(e));
      MultisetHeadTail(elements, e);
      var one := if elements[0] == e then 1 else 0;
      MulDistributes(n, one, multiset(elements[1..])[e]);
    }
    CountOfAppend(head, rest, None);
  }

  lemma MultisetHeadTail(s: seq<Element>, e: Element)
    requires |s| > 0
    ensures multiset(s)[e] == (if s[0] == e then 1 else 0) + multiset(s[1..])[e]
  {
    assert s == [s[0]] + s[1..];
  }

  lemma MulSucc(n: nat, m: nat)
    ensures n * (m + 1) == n + n * m
  {
  }

  lemma MulDistributes(n: nat, a: nat, b: nat)
    ensures n * (a + b) == n * a + n * b
  {
  }

  /** The readings a new service receives from `generate_certification_service`. */
  function Seed(s: Service): Service {
    s.(readings := GenerateReadings(s.id, ElementIds(s), RequiredReadingCount()))
  }

  /**
   * `element_ids` as a later request reads the stored many2many back: the
   * same elements, in the order of `certification.element`, which is by id.
   */
  function StoredElementIds(s: Service): (es: seq<Element>)
    ensures SortedBy(es, ElementKey)
    ensures multiset(es) == multiset(ElementIds(s))
    ensures NoDup(es)
  {
    var es := SortBy(ElementIds(s), ElementKey);
    NoDupPermutation(ElementIds(s), es);
    es
  }

  /** The readings a service with none receives when `action_start` runs. */
  function StartSeed(s: Service): Service {
    s.(readings := GenerateReadings(s.id, StoredElementIds(s), RequiredReadingCount()))
  }

  /**
   * Each element of the lot gets exactly the required number of readings, and
   * nothing else does, whichever order the elements are read in.
   */
  lemma SeedCountsPerElement(s: Service, e: Element)
    ensures CountOf(Seed(s).readings, Some(e)) ==
            if exists l :: l in LotLabels(s) && l.element == e then RequiredReadingCount() else 0
    ensures |Seed(s).readings| == RequiredReadingCount() * |ElementIds(s)|
    ensures CountOf(StartSeed(s).readings, Some(e)) == CountOf(Seed(s).readings, Some(e))
    ensures |StartSeed(s).readings| == |Seed(s).readings|
  {
    NoDupMultiplicity(ElementIds(s), e);
    assert |StoredElementIds(s)| == |multiset(StoredElementIds(s))|;
  }

  /**
   * `action_start`: every service of the recordset becomes working_on, done
   * ones included, and a service without readings is seeded with its
   * elements in stored (id) order.
   */
  function ActionStart(db: Db, ids: set<nat>): (r: Result<Db, Error>)
    requires ValidIds(db, ids)
    ensures r.Success? <==> forall k :: k in ids ==> db[k].standards != {}
    ensures r.Failure? ==> r.error == MissingStandard
    ensures r.Success? ==> |r.value| == |db|
    ensures r.Success? ==> forall k :: 0 <= k < |db| && k !in ids ==> r.value[k] == db[k]
    ensures r.Success? ==> forall k :: k in ids ==>
              && r.value[k].state == WorkingOn
              && r.value[k].readings == (if |db[k].readings| == 0 then StartSeed(db[k]).readings else db[k].readings)
              && r.value[k].(state := db[k].state, readings := db[k].readings) == db[k]
  {
    var _ :- Write(db, ids, Vals(Some(WorkingOn), None, None));
    Success(seq(|db|, k requires 0 <= k < |db| => if k in ids then Started(db[k]) else db[k]))
  }

  /** One service after `action_start`: working_on, and seeded when it has no readings. */
  function Started(s: Service): Service {
    s.(state := WorkingOn, readings := if |s.readings| == 0 then StartSeed(s).readings else s.readings)
  }

  /** `action_finish`: only the working_on services of the recordset become done. */
  function ActionFinish(db: Db, ids: set<nat>): (r: Result<Db, Error>)
    requires ValidIds(db, ids)
    ensures r.Success? <==> forall k :: k in ids && db[k].state == WorkingOn ==> db[k].standards != {}
    ensures r.Failure? ==> r.error == MissingStandard
    ensures r.Success? ==> |r.value| == |db|
    ensures r.Success? ==> forall k :: 0 <= k < |db| ==>
              r.value[k] == if k in ids && db[k].state == WorkingOn then db[k].(state := Done) else db[k]
  {
    var working := set k | k in ids && db[k].state == WorkingOn;
    Write(db, working, Vals(Some(Done), None, None))
  }

  /** Pressing start twice is the same as pressing it once: readings are never generated twice. */
  lemma ActionStartIdempotent(db: Db, ids: set<nat>)
    requires ValidIds(db, ids)
    requires ActionStart(db, ids).Success?
    ensures ValidIds(ActionStart(db, ids).value, ids)
    ensures ActionStart(ActionStart(db, ids).value, ids) == ActionStart(db, ids)
  {
    var once := ActionStart(db, ids).value;
    var twice := ActionStart(once, ids);
    assert twice.Success?;
    forall k | 0 <= k < |db|
      ensures twice.value[k] == once[k]
    {
      if k in ids {
        assert once[k] == db[k].(state := WorkingOn, readings := once[k].readings);
        assert StartSeed(once[k]).readings == StartSeed(db[k]).readings;
      }
    }
    assert twice.value == once;
  }

  /** Pressing finish twice is the same as pressing it once. */
  lemma ActionFinishIdempotent(db: Db, ids: set<nat>)
    requires ValidIds(db, ids)
    requires ActionFinish(db, ids).Success?
    ensures ValidIds(ActionFinish(db, ids).value, ids)
    ensures ActionFinish(ActionFinish(db, ids).value, ids) == ActionFinish(db, ids)
  {
    var once := ActionFinish(db, ids).value;
    var twice := ActionFinish(once, ids);
    assert twice.Success?;
    assert twice.value == once;
  }

  /** Start followed by finish leaves every service of the recordset done. */
  lemma StartThenFinishIsDone(db: Db, ids: set<nat>)
    requires ValidIds(db, ids)
    requires ActionStart(db, ids).Success?
    ensures ValidIds(ActionStart(db, ids).value, ids)
    ensures ActionFinish(ActionStart(db, ids).value, ids).Success?
    ensures forall k :: k in ids ==> ActionFinish(ActionStart(db, ids).value, ids).value[k].state == Done
  {
    var started := ActionStart(db, ids).value;
    assert forall k :: k in ids ==> started[k].standards == db[k].standards;
  }
}

=== FILE: stock_move.dfy ===
/**
 * The move-line side of the workflow: the values of a new certification
 * service, generating at most one service per eligible line, and the
 * "certification services done" test that gates a transfer.
 */
module StockMove {
  import opened Wrappers
  import opened Recordsets
  import opened Records
  import opened ServiceLifecycle

  /** `sep.join(parts)`. */
  function Join(parts: seq<string>, sep: string): string {
    if |parts| == 0 then ""
    else if |parts| == 1 then parts[0]
    else parts[0] + sep + Join(parts[1..], sep)
  }

  ghost predicate IsSubstring(t: string, s: string) {
    exists i, j :: 0 <= i <= j <= |s| && s[i..j] == t
  }

  /** A substring of the middle part is a substring of the whole. */
  lemma SubstringOfConcat(t: string, a: string, b: string, c: string)
    requires IsSubstring(t, b)
    ensures IsSubstring(t, a + b + c)
  {
    var i, j :| 0 <= i <= j <= |b| && b[i..j] == t;
    var s := a + b + c;
    assert s[|a| + i..|a| + j] == b[i..j];
  }

  /** Every part shows up in the joined string. */
  lemma {:induction false} JoinContainsParts(parts: seq<string>, sep: string, k: nat)
    requires k < |parts|
    ensures IsSubstring(parts[k], Join(parts, sep))
  {
    var s := Join(parts, sep);
    if |parts| == 1 {
      assert s[0..|s|] == parts[0];
    } else if k == 0 {
      assert s[0..|parts[0]|] == parts[0];
    } else {
      JoinContainsParts(parts[1..], sep, k - 1);
      var rest := Join(parts[1..], sep);
      SubstringOfConcat(parts[k], parts[0] + sep, rest, "");
      assert s == parts[0] + sep + rest + "";
    }
  }

  /** One labeled value as it appears in a service name: "element value uom". */
  function LabelEntry(l: LabeledValue, toStr: RealToString): string {
    Join([l.element.name, toStr(l.value), l.uom.name], " ")
  }

  function ManufacturerName(lot: Lot): string {
    if lot.manufacturer.Some? then lot.manufacturer.value else ""
  }

  /** "<serial> <values> / <manufacturer>", the values taken in the lot's label order. */
  function ServiceName(lot: Lot, toStr: RealToString): (name: string)
    ensures |name| >= |lot.name| + 1 && name[..|lot.name| + 1] == lot.name + " "
    ensures |name| >= |ManufacturerName(lot)| + 3 &&
            name[|name| - |ManufacturerName(lot)| - 3..] == " / " + ManufacturerName(lot)
  {
    var sorted := SortBy(lot.labels, LabelKey);
    var entries := seq(|sorted|, i requires 0 <= i < |sorted| => LabelEntry(sorted[i], toStr));
    var name := lot.name + " " + Join(entries, " - ") + " / " + ManufacturerName(lot);
    FormatEnds(lot.name, Join(entries, " - "), ManufacturerName(lot));
    name
  }

  /** `f'{a} {b} / {c}'` starts with `a` and a space and ends with " / " and `c`. */
  lemma FormatEnds(a: string, b: string, c: string)
    ensures var s := a + " " + b + " / " + c;
            && |s| == |a| + |b| + |c| + 4
            && s[..|a| + 1] == a + " "
            && s[|s| - |c| - 3..] == " / " + c
  {
    var s := a + " " + b + " / " + c;
    assert s == (a + " ") + (b + " / " + c);
    assert s == (a + " " + b) + (" / " + c);
  }

  /** Every labeled value of the lot is listed in the service name. */
  lemma ServiceNameListsEveryLabel(lot: Lot, toStr: RealToString, l: LabeledValue)
    requires l in lot.labels
    ensures IsSubstring(LabelEntry(l, toStr), ServiceName(lot, toStr))
  {
    var sorted := SortBy(lot.labels, LabelKey);
    var entries := seq(|sorted|, i requires 0 <= i < |sorted| => LabelEntry(sorted[i], toStr));
    var k :| 0 <= k < |sorted| && sorted[k] == l;
    JoinContainsParts(entries, " - ", k);
    var joined := Join(entries, " - ");
    SubstringOfConcat(entries[k], lot.name + " ", joined, " / " + ManufacturerName(lot));
    assert ServiceName(lot, toStr) == lot.name + " " + joined + (" / " + ManufacturerName(lot));
  }

  /** The values `_prepare_certification_service_values` hands to `create`. */
  datatype ServiceValues = ServiceValues(
    name: string,
    company: Option<Company>,
    product: Option<Product>,
    lot: Option<Lot>,
    moveLine: nat,
    groupId: Option<nat>,
    dateCalibration: Option<int>)

  /** `self.name or self.move_id.name`: an empty name is falsy. */
  function LineName(line: MoveLine): string {
    if line.name != "" then line.name else line.move.name
  }

  /**
   * `_prepare_certification_service_values`. With a serviced lot the name is
   * built from the lot and also written to the lot's `ref`.
   */
  function PrepareServiceValues(line: MoveLine, toStr: RealToString): (v: ServiceValues)
    ensures line.serviceLot.None? ==> v.name == LineName(line) && v.lot.None?
    ensures line.serviceLot.Some? ==>
              && v.name == ServiceName(line.serviceLot.value, toStr)
              && v.lot == Some(line.serviceLot.value.(ref := v.name))
    ensures v.moveLine == line.id && v.company == line.pickingCompany && v.product == line.product
    ensures v.groupId.Some? <==> line.move.group.Some?
    ensures v.groupId.Some? ==> v.groupId.value == line.move.group.value.id
    ensures v.dateCalibration.Some? ==>
              && line.move.group.Some? && line.move.group.value.sale.Some?
              && v.dateCalibration == line.move.group.value.sale.value.dateCalibration
    ensures line.move.group.Some? && line.move.group.value.sale.Some? ==>
              v.dateCalibration == line.move.group.value.sale.value.dateCalibration
  {
    var name := if line.serviceLot.Some? then ServiceName(line.serviceLot.value, toStr) else LineName(line);
    var lot := if line.serviceLot.Some? then Some(line.serviceLot.value.(ref := name)) else None;
    var group := line.move.group;
    ServiceValues(
      name,
      line.pickingCompany,
      line.product,
      lot,
      line.id,
      if group.Some? then Some(group.value.id) else None,
      if group.Some? && group.value.sale.Some? then group.value.sale.value.dateCalibration else None)
  }

  /** `create` with the field defaults: a draft service with no readings, results or standards. */
  function CreateService(id: nat, v: ServiceValues): Service {
    Service(id, v.name, v.company, v.product, v.lot, v.moveLine, v.groupId, Draft, [], [], false,
            v.dateCalibration, {})
  }

  /** The filter of `generate_certification_service`. */
  predicate Eligible(l: MoveLine) {
    l.createService && l.product.Some? && l.serviceLot.Some? && l.move.group.Some?
  }

  predicate HasService(db: Db, lineId: nat) {
    exists k :: 0 <= k < |db| && db[k].moveLine == lineId
  }

  ghost predicate AtMostOnePerLine(db: Db) {
    forall i, j :: 0 <= i < j < |db| ==> db[i].moveLine != db[j].moveLine
  }

  /** The service created for an eligible line, seeded with the required readings. */
  function NewService(db: Db, line: MoveLine, toStr: RealToString): Service {
    Seed(CreateService(|db|, PrepareServiceValues(line, toStr)))
  }

  /** A service created by `GenerateServices` on top of `db`: a seeded service for an eligible, unserviced line. */
  ghost predicate CreatedFor(r: Db, k: nat, db: Db, lines: seq<MoveLine>, toStr: RealToString)
    requires k < |r|
  {
    && !HasService(db, r[k].moveLine)
    && exists i :: 0 <= i < |lines| && Eligible(lines[i]) && r[k] == NewService(r[..k], lines[i], toStr)
  }

  /**
   * `generate_certification_service` with the reading count passed, as
   * `action_start` does: one seeded service per eligible line that has none.
   */
  function GenerateServices(lines: seq<MoveLine>, db: Db, toStr: RealToString): (r: Db)
    ensures |r| >= |db| && r[..|db|] == db
    ensures forall k :: |db| <= k < |r| ==> CreatedFor(r, k, db, lines, toStr)
    ensures forall k :: |db| <= k < |r| ==>
              ForEligibleLine(r[k], lines)
    ensures forall i :: 0 <= i < |lines| && Eligible(lines[i]) ==> HasService(r, lines[i].id)
    ensures AtMostOnePerLine(db) ==> AtMostOnePerLine(r)
    decreases |lines|
  {
    if |lines| == 0 then db
    else
      var l := lines[0];
      var db' := if Eligible(l) && !HasService(db, l.id) then db + [NewService(db, l, toStr)] else db;
      var r := GenerateServices(lines[1..], db', toStr);
      GenerateStep(lines, db, db', r, toStr);
      CreatedForLines(r, db, lines, toStr);
      r
  }

  /** A service in a prefix of the database is a service of the database. */
  lemma HasServiceInPrefix(db: Db, r: Db, lineId: nat)
    requires |r| >= |db| && r[..|db|] == db
    ensures HasService(db, lineId) ==> HasService(r, lineId)
  {
    if HasService(db, lineId) {
      var k :| 0 <= k < |db| && db[k].moveLine == lineId;
      assert r[k] == db[k];
    }
  }

  /** One iteration of the generation loop. */
  lemma GenerateStep(lines: seq<MoveLine>, db: Db, db': Db, r: Db, toStr: RealToString)
    requires |lines| > 0
    requires db' == if Eligible(lines[0]) && !HasService(db, lines[0].id) then db + [NewService(db, lines[0], toStr)] else db
    requires |r| >= |db'| && r[..|db'|] == db'
    requires forall k :: |db'| <= k < |r| ==> CreatedFor(r, k, db', lines[1..], toStr)
    requires forall i :: 0 <= i < |lines[1..]| && Eligible(lines[1..][i]) ==> HasService(r, lines[1..][i].id)
    requires AtMostOnePerLine(db') ==> AtMostOnePerLine(r)
    ensures |r| >= |db| && r[..|db|] == db
    ensures forall k :: |db| <= k < |r| ==> CreatedFor(r, k, db, lines, toStr)
    ensures forall i :: 0 <= i < |lines| && Eligible(lines[i]) ==> HasService(r, lines[i].id)
    ensures AtMostOnePerLine(db) ==> AtMostOnePerLine(r)
  {
    assert r[..|db|] == r[..|db'|][..|db|];
    forall k | |db| <= k < |r|
      ensures CreatedFor(r, k, db, lines, toStr)
    {
      StepCreated(lines, db, db', r, toStr, k);
    }
    forall i | 0 <= i < |lines| && Eligible(lines[i])
      ensures HasService(r, lines[i].id)
    {
      if i == 0 {
        HasServiceInPrefix(db, db', lines[0].id);
        HasServiceInPrefix(db', r, lines[0].id);
        if !HasService(db, lines[0].id) {
          assert db'[|db|].moveLine == lines[0].id;
        }
      } else {
        assert lines[1..][i - 1] == lines[i];
      }
    }
    if AtMostOnePerLine(db) {
      StepAtMostOne(lines, db, db', toStr);
    }
  }

  lemma StepCreated(lines: seq<MoveLine>, db: Db, db': Db, r: Db, toStr: RealToString, k: nat)
    requires |lines| > 0
    requires db' == if Eligible(lines[0]) && !HasService(db, lines[0].id) then db + [NewService(db, lines[0], toStr)] else db
    requires |r| >= |db'| && r[..|db'|] == db'
    requires forall k :: |db'| <= k < |r| ==> CreatedFor(r, k, db', lines[1..], toStr)
    requires |db| <= k < |r|
    ensures CreatedFor(r, k, db, lines, toStr)
  {
    if k < |db'| {
      assert k == |db| && r[k] == db'[k];
      assert r[..k] == r[..|db'|][..k];
      NewServiceLine(db, lines[0], toStr);
      assert r[k] == NewService(r[..k], lines[0], toStr);
    } else {
      StepCreatedLater(lines, db, db', r, toStr, k);
    }
  }

  lemma StepCreatedLater(lines: seq<MoveLine>, db: Db, db': Db, r: Db, toStr: RealToString, k: nat)
    requires |lines| > 0
    requires |db'| >= |db| && db'[..|db|] == db
    requires |db'| <= k < |r|
    requires CreatedFor(r, k, db', lines[1..], toStr)
    ensures CreatedFor(r, k, db, lines, toStr)
  {
    HasServiceInPrefix(db, db', r[k].moveLine);
    var i :| 0 <= i < |lines[1..]| && Eligible(lines[1..][i]) && r[k] == NewService(r[..k], lines[1..][i], toStr);
    assert lines[1..][i] == lines[i + 1];
  }

  /** The service is linked to an eligible line among `lines`. */
  predicate ForEligibleLine(s: Service, lines: seq<MoveLine>) {
    exists i :: 0 <= i < |lines| && Eligible(lines[i]) && s.moveLine == lines[i].id
  }

  /** Every service created by generation belongs to an eligible line of the input. */
  lemma CreatedForLines(r: Db, db: Db, lines: seq<MoveLine>, toStr: RealToString)
    requires forall k :: |db| <= k < |r| ==> CreatedFor(r, k, db, lines, toStr)
    ensures forall k :: |db| <= k < |r| ==>
              ForEligibleLine(r[k], lines)
  {
    forall k | |db| <= k < |r|
      ensures ForEligibleLine(r[k], lines)
    {
      assert CreatedFor(r, k, db, lines, toStr);
      var i :| 0 <= i < |lines| && Eligible(lines[i]) && r[k] == NewService(r[..k], lines[i], toStr);
      NewServiceLine(r[..k], lines[i], toStr);
      assert r[k].moveLine == lines[i].id;
    }
  }

  /** A new service is linked to the line it was created for. */
  lemma NewServiceLine(db: Db, line: MoveLine, toStr: RealToString)
    ensures NewService(db, line, toStr).moveLine == line.id
    ensures NewService(db, line, toStr).id == |db|
  {
  }

  lemma StepAtMostOne(lines: seq<MoveLine>, db: Db, db': Db, toStr: RealToString)
    requires |lines| > 0
    requires db' == if Eligible(lines[0]) && !HasService(db, lines[0].id) then db + [NewService(db, lines[0], toStr)] else db
    requires AtMostOnePerLine(db)
    ensures AtMostOnePerLine(db')
  {
    if |db'| > |db| {
      forall i, j | 0 <= i < j < |db'|
        ensures db'[i].moveLine != db'[j].moveLine
      {
        if j == |db| {
          assert db'[j].moveLine == lines[0].id;
          assert db'[i] == db[i];
        }
      }
    }
  }

  /** Once every eligible line has its service, generating again changes nothing. */
  lemma {:induction false} GenerateWhenAllServiced(lines: seq<MoveLine>, db: Db, toStr: RealToString)
    requires forall i :: 0 <= i < |lines| && Eligible(lines[i]) ==> HasService(db, lines[i].id)
    ensures GenerateServices(lines, db, toStr) == db
    decreases |lines|
  {
    if |lines| > 0 {
      assert Eligible(lines[0]) ==> HasService(db, lines[0].id);
      forall i | 0 <= i < |lines[1..]| && Eligible(lines[1..][i])
        ensures HasService(db, lines[1..][i].id)
      {
        assert lines[1..][i] == lines[i + 1];
      }
      GenerateWhenAllServiced(lines[1..], db, toStr);
    }
  }

  /** Generating services is idempotent: a second call on the same lines is a no-op. */
  lemma GenerateIdempotent(lines: seq<MoveLine>, db: Db, toStr: RealToString)
    ensures GenerateServices(lines, GenerateServices(lines, db, toStr), toStr) == GenerateServices(lines, db, toStr)
  {
    GenerateWhenAllServiced(lines, GenerateServices(lines, db, toStr), toStr);
  }

  /**
   * `generate_certification_service` as written: it calls `generate_readings`
   * without its `reading_count` argument, so the first eligible line without
   * a service raises a TypeError and the whole transaction rolls back.
   */
  function GenerateServicesAsWritten(lines: seq<MoveLine>, db: Db): (r: Result<Db, Error>)
    ensures r.Success? ==> r.value == db
    ensures r.Failure? <==> exists i :: 0 <= i < |lines| && Eligible(lines[i]) && !HasService(db, lines[i].id)
    ensures r.Failure? ==> r.error == MissingArgument("reading_count")
  {
    if |lines| == 0 then Success(db)
    else if Eligible(lines[0]) && !HasService(db, lines[0].id) then Failure(MissingArgument("reading_count"))
    else
      var r := GenerateServicesAsWritten(lines[1..], db);
      assert forall i :: 1 <= i < |lines| ==> lines[i] == lines[1..][i - 1];
      r
  }

  /** The defect: exactly when the intended generation would create a service, the code as written fails. */
  lemma {:induction false} AsWrittenFailsWhereServicesAreDue(lines: seq<MoveLine>, db: Db, toStr: RealToString)
    ensures GenerateServicesAsWritten(lines, db).Failure? <==> |GenerateServices(lines, db, toStr)| > |db|
  {
    if GenerateServicesAsWritten(lines, db).Failure? {
      var i :| 0 <= i < |lines| && Eligible(lines[i]) && !HasService(db, lines[i].id);
      var r := GenerateServices(lines, db, toStr);
      assert HasService(r, lines[i].id);
    } else {
      GenerateWhenAllServiced(lines, db, toStr);
    }
  }

  /**
   * `check_certification_services_done` as written: true when the lines have
   * no service, or when at least one of their services is done.
   */
  function CheckServicesDone(db: Db, lineIds: set<nat>): (b: bool)
    ensures b <==> (forall k :: 0 <= k < |db| ==> db[k].moveLine !in lineIds)
                   || (exists k :: 0 <= k < |db| && db[k].moveLine in lineIds && db[k].state == Done)
  {
    var services := Filter(db, (s: Service) => s.moveLine in lineIds);
    FilteredServices(db, lineIds, services);
    |services| == 0 || exists i :: 0 <= i < |services| && services[i].state == Done
  }

  /** `search([('move_line_id', 'in', ids)])` finds the services of those lines, and only them. */
  lemma FilteredServices(db: Db, lineIds: set<nat>, services: seq<Service>)
    requires forall y :: y in services <==> y in db && y.moveLine in lineIds
    ensures |services| == 0 <==> forall k :: 0 <= k < |db| ==> db[k].moveLine !in lineIds
    ensures (exists i :: 0 <= i < |services| && services[i].state == Done) <==>
            (exists k :: 0 <= k < |db| && db[k].moveLine in lineIds && db[k].state == Done)
  {
    if exists k :: 0 <= k < |db| && db[k].moveLine in lineIds {
      var k :| 0 <= k < |db| && db[k].moveLine in lineIds;
      assert db[k] in services;
    }
    if |services| > 0 {
      assert services[0] in db;
    }
    if exists i :: 0 <= i < |services| && services[i].state == Done {
      var i :| 0 <= i < |services| && services[i].state == Done;
      assert services[i] in db;
    }
    if exists k :: 0 <= k < |db| && db[k].moveLine in lineIds && db[k].state == Done {
      var k :| 0 <= k < |db| && db[k].moveLine in lineIds && db[k].state == Done;
      assert db[k] in services;
    }
  }

  /** The stricter reading of the name: every service of the lines is done. */
  ghost predicate AllServicesDone(db: Db, lineIds: set<nat>) {
    forall k :: 0 <= k < |db| && db[k].moveLine in lineIds ==> db[k].state == Done
  }

  /** When every service of the lines is done, the check passes. */
  lemma AllDoneImpliesCheckPasses(db: Db, lineIds: set<nat>)
    requires AllServicesDone(db, lineIds)
    ensures CheckServicesDone(db, lineIds)
  {
    if exists k :: 0 <= k < |db| && db[k].moveLine in lineIds {
      var k :| 0 <= k < |db| && db[k].moveLine in lineIds;
      assert db[k].state == Done;
    }
  }

  /** With at most one service for the lines, "any done" and "all done" agree. */
  lemma CheckMatchesAllDoneForOneService(db: Db, lineIds: set<nat>)
    requires forall i, j :: 0 <= i < |db| && 0 <= j < |db| && db[i].moveLine in lineIds && db[j].moveLine in lineIds ==> i == j
    ensures CheckServicesDone(db, lineIds) <==> AllServicesDone(db, lineIds)
  {
    if AllServicesDone(db, lineIds) {
      AllDoneImpliesCheckPasses(db, lineIds);
    }
  }
}

=== FILE: stock_picking.dfy ===
/**
 * The checks `button_validate` adds to a transfer before the standard
 * validation, and the service generation it triggers afterwards.
 */
module StockPicking {
  import opened Wrappers
  import opened Recordsets
  import opened Records
  import opened StockMove

  /** The ids of the move lines of all the moves preceding this line's move. */
  function OriginLineIds(l: MoveLine): (ids: set<nat>)
    ensures forall id :: id in ids <==> exists i :: 0 <= i < |l.move.origMoves| && id in l.move.origMoves[i].lineIds
  {
    UnionLineIds(l.move.origMoves)
  }

  function UnionLineIds(ms: seq<OrigMove>): (ids: set<nat>)
    ensures forall id :: id in ids <==> exists i :: 0 <= i < |ms| && id in ms[i].lineIds
  {
    if |ms| == 0 then {}
    else
      var rest := UnionLineIds(ms[1..]);
      assert forall i :: 1 <= i < |ms| ==> ms[i] == ms[1..][i - 1];
      ms[0].lineIds + rest
  }

  /** The line leaves a location that requires a certification service. */
  predicate SourceGated(l: MoveLine) {
    l.location.Some? && l.location.value.createService
  }

  /** The line has origin lines and their certification check passes. */
  predicate OriginDone(l: MoveLine, db: Db) {
    OriginLineIds(l) != {} && CheckServicesDone(db, OriginLineIds(l))
  }

  /** A gated line whose origin is done gets its full quantity as done, when that quantity is non-zero. */
  function Release(l: MoveLine, db: Db): (l': MoveLine)
    ensures l'.(qtyDone := l.qtyDone) == l
    ensures l'.qtyDone != l.qtyDone ==>
              SourceGated(l) && OriginDone(l, db) && l.productUomQty != 0.0 && l'.qtyDone == l.productUomQty
    ensures SourceGated(l) && OriginDone(l, db) && l.productUomQty != 0.0 ==> l'.qtyDone == l.productUomQty
  {
    if SourceGated(l) && OriginDone(l, db) && l.productUomQty != 0.0 then l.(qtyDone := l.productUomQty) else l
  }

  /** The flagged lines without a serviced serial number. */
  predicate LacksSerial(l: MoveLine) {
    l.createService && l.serviceLot.None?
  }

  function Products(lines: seq<MoveLine>): seq<Option<Product>> {
    seq(|lines|, i requires 0 <= i < |lines| => lines[i].product)
  }

  ghost predicate HasGatedLine(p: Picking) {
    exists i :: 0 <= i < |p.lines| && SourceGated(p.lines[i])
  }

  ghost predicate HasReleasedLine(p: Picking, db: Db) {
    exists i :: 0 <= i < |p.lines| && SourceGated(p.lines[i]) && OriginDone(p.lines[i], db)
  }

  /** The checks of `button_validate` that run before the parent validation. */
  function ValidateGate(p: Picking, db: Db): (r: Result<Picking, Error>)
    ensures r == Failure(NoLinesToMove) <==> |p.moves| == 0 && |p.lines| == 0
    ensures r.Success? <==>
              && (|p.moves| > 0 || |p.lines| > 0)
              && (HasGatedLine(p) ==> HasReleasedLine(p, db))
              && !(p.createService && exists i :: 0 <= i < |p.lines| && LacksSerial(p.lines[i]))
    ensures r == Failure(CertificationNotDone) <==>
              (|p.moves| > 0 || |p.lines| > 0) && HasGatedLine(p) && !HasReleasedLine(p, db)
    ensures r.Failure? && r.error.MissingServicedSerial? <==>
              && (|p.moves| > 0 || |p.lines| > 0)
              && (HasGatedLine(p) ==> HasReleasedLine(p, db))
              && p.createService
              && exists i :: 0 <= i < |p.lines| && LacksSerial(p.lines[i])
    ensures r.Failure? && r.error.MissingServicedSerial? ==>
              r.error.products == Products(Filter(p.lines, LacksSerial)) && |r.error.products| > 0
    ensures r.Success? ==> r.value == p.(lines := r.value.lines)
    ensures r.Success? ==> |r.value.lines| == |p.lines|
    ensures r.Success? ==> forall i :: 0 <= i < |p.lines| ==> r.value.lines[i] == Release(p.lines[i], db)
    ensures r.Success? && p.createService ==> forall i :: 0 <= i < |p.lines| ==> !LacksSerial(p.lines[i])
  {
    if |p.moves| == 0 && |p.lines| == 0 then Failure(NoLinesToMove)
    else
      var gated := Filter(p.lines, SourceGated);
      var atLeastOneDone := exists i :: 0 <= i < |gated| && OriginDone(gated[i], db);
      GatedLines(p, db, gated);
      if |gated| > 0 && !atLeastOneDone then Failure(CertificationNotDone)
      else
        var missing := Filter(p.lines, LacksSerial);
        FilterNonEmpty(p.lines, LacksSerial);
        if p.createService && |missing| > 0 then Failure(MissingServicedSerial(Products(missing)))
        else Success(p.(lines := seq(|p.lines|, i requires 0 <= i < |p.lines| => Release(p.lines[i], db))))
  }

  lemma GatedLines(p: Picking, db: Db, gated: seq<MoveLine>)
    requires gated == Filter(p.lines, SourceGated)
    ensures |gated| > 0 <==> HasGatedLine(p)
    ensures (exists i :: 0 <= i < |gated| && OriginDone(gated[i], db)) <==> HasReleasedLine(p, db)
  {
    FilterNonEmpty(p.lines, SourceGated);
    if exists i :: 0 <= i < |gated| && OriginDone(gated[i], db) {
      var i :| 0 <= i < |gated| && OriginDone(gated[i], db);
      assert gated[i] in p.lines;
      var j :| 0 <= j < |p.lines| && p.lines[j] == gated[i];
    }
    if HasReleasedLine(p, db) {
      var j :| 0 <= j < |p.lines| && SourceGated(p.lines[j]) && OriginDone(p.lines[j], db);
      assert p.lines[j] in gated;
    }
  }

  /** A line whose origin moves have no move lines never counts as released, and keeps its quantity. */
  lemma EmptyOriginNeverReleases(l: MoveLine, db: Db)
    requires OriginLineIds(l) == {}
    ensures !OriginDone(l, db)
    ensures Release(l, db) == l
  {
  }

  /** If every gated line lacks origin lines, a non-empty transfer is always blocked. */
  lemma GatedWithoutOriginsBlocks(p: Picking, db: Db)
    requires |p.lines| > 0
    requires HasGatedLine(p)
    requires forall i :: 0 <= i < |p.lines| && SourceGated(p.lines[i]) ==> OriginLineIds(p.lines[i]) == {}
    ensures ValidateGate(p, db) == Failure(CertificationNotDone)
  {
  }

  /** The outcome of a validation: the picking's lines and the certification services. */
  datatype Validated = Validated(picking: Picking, services: Db)

  function FlaggedLines(lines: seq<MoveLine>): seq<MoveLine> {
    Filter(lines, (l: MoveLine) => l.createService)
  }

  /** `move_line_ids.filtered('create_service').generate_certification_service()`. */
  function GenerateForLines(lines: seq<MoveLine>, db: Db, toStr: RealToString): (r: Db)
    ensures |r| >= |db| && r[..|db|] == db
    ensures AtMostOnePerLine(db) ==> AtMostOnePerLine(r)
  {
    GenerateServices(FlaggedLines(lines), db, toStr)
  }

  /** An eligible line has a service once the flagged lines have been processed. */
  lemma EligibleLineServiced(lines: seq<MoveLine>, db: Db, toStr: RealToString, i: nat)
    requires i < |lines| && Eligible(lines[i])
    ensures HasService(GenerateForLines(lines, db, toStr), lines[i].id)
  {
    var flagged := FlaggedLines(lines);
    assert lines[i] in flagged;
    var j :| 0 <= j < |flagged| && flagged[j] == lines[i];
    assert Eligible(flagged[j]);
  }

  /** Every service created for the flagged lines belongs to an eligible line. */
  lemma NewServicesBelongToLines(lines: seq<MoveLine>, db: Db, toStr: RealToString)
    ensures var r := GenerateForLines(lines, db, toStr);
            forall k :: |db| <= k < |r| ==> ForEligibleLine(r[k], lines)
  {
    var flagged := FlaggedLines(lines);
    var r := GenerateServices(flagged, db, toStr);
    forall k | |db| <= k < |r|
      ensures ForEligibleLine(r[k], lines)
    {
      assert ForEligibleLine(r[k], flagged);
      var j :| 0 <= j < |flagged| && Eligible(flagged[j]) && r[k].moveLine == flagged[j].id;
      assert flagged[j] in lines;
      var i :| 0 <= i < |lines| && lines[i] == flagged[j];
    }
  }

  /**
   * `button_validate`: the gate, then the parent validation (whose outcome is
   * a parameter: true when it returns an action such as a wizard), then
   * service generation for the flagged lines when the parent has finished.
   */
  function ButtonValidate(p: Picking, db: Db, parentReturnsAction: bool, toStr: RealToString): (r: Result<Validated, Error>)
    ensures r.Failure? <==> ValidateGate(p, db).Failure?
    ensures r.Failure? ==> r.error == ValidateGate(p, db).error
    ensures r.Success? ==> r.value.picking == ValidateGate(p, db).value
    ensures r.Success? && (parentReturnsAction || !p.createService) ==> r.value.services == db
    ensures r.Success? && !parentReturnsAction && p.createService ==>
              r.value.services == GenerateForLines(r.value.picking.lines, db, toStr)
  {
    var gate := ValidateGate(p, db);
    if gate.Failure? then Failure(gate.error)
    else if parentReturnsAction || !p.createService then Success(Validated(gate.value, db))
    else Success(Validated(gate.value, GenerateForLines(gate.value.lines, db, toStr)))
  }

  /** Releasing a line keeps its id and whether a service is due for it. */
  lemma ReleaseKeepsEligibility(l: MoveLine, db: Db)
    ensures Release(l, db).id == l.id
    ensures Eligible(Release(l, db)) <==> Eligible(l)
  {
    assert Release(l, db).(qtyDone := l.qtyDone) == l;
  }

  /**
   * After a validation that generates services, every eligible line of the
   * transfer has a service, every new service belongs to one of them, and no
   * line has two.
   */
  lemma ValidationServicesEveryEligibleLine(p: Picking, db: Db, toStr: RealToString)
    requires ButtonValidate(p, db, false, toStr).Success?
    requires p.createService
    requires AtMostOnePerLine(db)
    ensures var r := ButtonValidate(p, db, false, toStr).value.services;
            && r[..|db|] == db
            && AtMostOnePerLine(r)
            && (forall i :: 0 <= i < |p.lines| && Eligible(p.lines[i]) ==> HasService(r, p.lines[i].id))
            && (forall k :: |db| <= k < |r| ==> ForEligibleLine(r[k], p.lines))
  {
    var released := ValidateGate(p, db).value.lines;
    var r := ButtonValidate(p, db, false, toStr).value.services;
    assert r == GenerateForLines(released, db, toStr);
    forall i | 0 <= i < |p.lines| && Eligible(p.lines[i])
      ensures HasService(r, p.lines[i].id)
    {
      ReleaseKeepsEligibility(p.lines[i], db);
      EligibleLineServiced(released, db, toStr, i);
    }
    NewServicesBelongToLines(released, db, toStr);
    forall k | |db| <= k < |r|
      ensures ForEligibleLine(r[k], p.lines)
    {
      assert ForEligibleLine(r[k], released);
      var i :| 0 <= i < |released| && Eligible(released[i]) && r[k].moveLine == released[i].id;
      ReleaseKeepsEligibility(p.lines[i], db);
    }
  }

  /** The gate as written: `UserError` is not imported, so an empty transfer raises a NameError. */
  function ValidateGateAsWritten(p: Picking, db: Db): (r: Result<Picking, Error>)
    ensures |p.moves| == 0 && |p.lines| == 0 ==> r == Failure(UndefinedName("UserError"))
    ensures |p.moves| > 0 || |p.lines| > 0 ==> r == ValidateGate(p, db)
  {
    if |p.moves| == 0 && |p.lines| == 0 then Failure(UndefinedName("UserError")) else ValidateGate(p, db)
  }

  /** `button_validate` as written, with both the NameError and the missing reading count. */
  function ButtonValidateAsWritten(p: Picking, db: Db, parentReturnsAction: bool): (r: Result<Validated, Error>)
    ensures r == Failure(UndefinedName("UserError")) <==> |p.moves| == 0 && |p.lines| == 0
    ensures r.Failure? ==>
              || r.error == UndefinedName("UserError")
              || r.error == MissingArgument("reading_count")
              || ValidateGate(p, db) == Failure(r.error)
    ensures r.Success? ==> ValidateGate(p, db) == Success(r.value.picking) && r.value.services == db
  {
    var p' :- ValidateGateAsWritten(p, db);
    if parentReturnsAction || !p'.createService then Success(Validated(p', db))
    else
      var db' :- GenerateServicesAsWritten(FlaggedLines(p'.lines), db);
      Success(Validated(p', db'))
  }

  /** On an empty transfer the user gets a NameError instead of the intended message. */
  lemma EmptyTransferRaisesNameError(p: Picking, db: Db, parentReturnsAction: bool, toStr: RealToString)
    requires |p.moves| == 0 && |p.lines| == 0
    ensures ButtonValidateAsWritten(p, db, parentReturnsAction) == Failure(UndefinedName("UserError"))
    ensures ButtonValidate(p, db, parentReturnsAction, toStr) == Failure(NoLinesToMove)
  {
  }

  /**
   * On a non-empty transfer the code as written behaves as intended except
   * that it aborts whenever a certification service is due.
   */
  lemma AsWrittenAbortsWhenServiceIsDue(p: Picking, db: Db, parentReturnsAction: bool, toStr: RealToString)
    requires |p.moves| > 0 || |p.lines| > 0
    ensures var intended := ButtonValidate(p, db, parentReturnsAction, toStr);
            ButtonValidateAsWritten(p, db, parentReturnsAction) ==
              if intended.Success? && |intended.value.services| > |db|
              then Failure(MissingArgument("reading_count"))
              else intended
  {
    var gate := ValidateGate(p, db);
    if gate.Success? && !parentReturnsAction && gate.value.createService {
      var flagged := FlaggedLines(gate.value.lines);
      AsWrittenFailsWhereServicesAreDue(flagged, db, toStr);
      if GenerateServicesAsWritten(flagged, db).Success? {
        assert GenerateServices(flagged, db, toStr) == db by {
          var r := GenerateServices(flagged, db, toStr);
          assert r == r[..|db|];
        }
      }
    }
  }
}

=== FILE: wrappers.dfy ===
/** Option and Result, failure-compatible so that `:-` propagates an error. */
module Wrappers {

  /** An optional value: a many2one field that may be empty, a setting that may be unset. */
  datatype Option<+T> = None | Some(value: T) {

    /** Turns an absent value into the given error. */
    function ToResult<E>(error: E): Result<T, E> {
      if Some? then Success(value) else Failure(error)
    }
  }

  /** Either a value or the error that aborted the enclosing transaction. */
  datatype Result<+R, +E> = Success(value: R) | Failure(error: E) {

    predicate IsFailure() {
      Failure?
    }

    function PropagateFailure<U>(): Result<U, E>
      requires Failure?
    {
      Failure(error)
    }

    function Extract(): R
      requires Success?
    {
      value
    }
  }
}
